=== FILE: README.md ===
# Home Color Lab — a Dafny model of the core

Home Color Lab lets a visitor photograph a room and try paint colours on it.
An AI service lists the paintable elements of the photo. An image model
recolours one element. A report of the rooms and the chosen colours can be
produced at the end. Paint companies keep their own catalogues through an
admin dashboard.

This project models the logic of that core as pure Dafny functions over
immutable data:

- **Project** (`project.dfy`): the editor session of `useProject`.
  - It holds a list of rooms, each with its images, its elements and its
    selected element.
  - It tracks the active room and the processing flag.
  - It has every operation of the hook, plus the derived active room.
- **RateLimit** (`rate_limit.dfy`): the per-client, fixed-window limiter.
  - Both AI edge functions keep it in memory: 5 requests per minute for
    colouring and 10 for analysis.
  - It includes the client key read from `x-forwarded-for`.
- **ApplyColor** (`apply_color.dfy`): the `apply-color` edge function.
  - Ordered validation and the prompt sanitiser.
  - The create call, the poll loop with its progressive delay, and output
    extraction.
  - The status and body of every outcome.
- **AnalyzeRoom** (`analyze_room.dfy`): the `analyze-room` edge function.
  - Image validation, the gateway's 429/402 pass-through, and extraction of
    the tool-call arguments.
  - The two default answers, which carry the same four elements as the
    editor.
- **Report** (`report.dfy`): the `generate-pdf` edge function.
  - `escapeHtml`, the data-URL and hex-colour validators, and the
    validation and sanitisation of the submitted rooms.
  - The context of every value the report template interpolates.
- **Admin** (`admin.dfy`): the dashboard's slug handling (the
  "edited by hand" flag and the submit-time transform), and the CSV export
  and import of a catalogue.
- **Catalog** (`catalog.dfy`): the colour catalogue's search and its brand
  and category filters.
- **Shared modules**:
  - `Optional`.
  - `Seqs`: order-preserving filter, the subsequence relation, and
    filter-map with its loop.
  - `Text`: the JavaScript string built-ins the code uses.
  - `Json`: parsed request values, truthiness, and property reads that throw
    on `null`.

Things the code reads from its environment become parameters:

- the clock (`now`, and the per-poll latency of a scripted provider);
- the presence of the API key;
- the replies of the image model and of the AI gateway (`Provider`,
  `Gateway`);
- the selected file of the CSV import;
- the `x-forwarded-for` header.

A thrown exception that the handler catches is modelled by its effect: the
500 answer of `apply-color` and `generate-pdf`, and the 200 fallback answer
of `analyze-room`. Reading a property of `null` is such an exception.

`src/types/project.ts` still declares the single-image `ProjectState`, with
no rooms and no active room, while `useProject` works on rooms. The model
follows the hook:

- A room carries id, name, both images, elements and the selected element.
- The initial session has no rooms and no active room, and is not
  processing.

## Model

| member | source | states |
|---|---|---|
| Project.AddRoom | src/hooks/useProject.ts:7-23 | one room is appended and the existing rooms are kept. The new room's id is `room-<now>`, both images are the given image, the elements are the defaults and nothing is selected. The name is the given name when non-empty, else `Ambiente <n+1>`. The new room becomes active, so the active id is valid afterwards |
| Project.SetActiveRoom | src/hooks/useProject.ts:25-27 | only the active id changes. The result keeps a valid active id exactly when a room with that id exists (the hook does not check) |
| Project.UpdateRoomName | src/hooks/useProject.ts:29-34 | every room with the id gets the name and nothing else of any room changes. Ids and positions are kept, so a valid active id stays valid |
| Project.RemoveRoom | src/hooks/useProject.ts:36-47 | no room with the id remains, and the rest keep their order and multiplicity (a subsequence with exactly the other rooms, each as often as before). If the removed id was active, the first remaining room becomes active (none if empty); otherwise the active id is unchanged. A valid active id stays valid |
| Project.SetRoomProcessedImage | src/hooks/useProject.ts:49-54 | only the processed image of the rooms with the id changes |
| Project.SetRoomElements | src/hooks/useProject.ts:56-61 | only the element list of the rooms with the id changes |
| Project.SelectElement | src/hooks/useProject.ts:63-70 | only the selection of the active room changes |
| Project.Recolor | src/hooks/useProject.ts:85-89 | the element with the id gets all four colour fields. Every other element is unchanged, and no id, name or kind changes |
| Project.UpdateElementColor | src/hooks/useProject.ts:72-94 | only elements of the active room are touched, and within it only the matching element is recoloured. Rooms that are not active are unchanged |
| Project.SetProcessing | src/hooks/useProject.ts:96-102 | the rooms and the active id are unchanged. The flag is set, and the step is the given one, or empty when none is given |
| Project.ResetProject | src/hooks/useProject.ts:104-106 | the session is back to no rooms, no active room, not processing, with an empty step |
| Project.Find | src/hooks/useProject.ts:109 | a room is found iff a room has the id, and the found room is the first one with it |
| Project.ActiveRoom | src/hooks/useProject.ts:109 | the active room exists iff the active id names a room, and the room found is the first room in the list whose id is the active id. Under the invariant it exists iff an id is active |
| Project.SelectWithoutActiveRoom | src/hooks/useProject.ts:63-70 | when no room matches the active id, selecting changes nothing |
| Project.ActiveValidReachable | src/hooks/useProject.ts:7-106 | from a valid state, any sequence of hook operations keeps the active id pointing at an existing room, as long as every explicit activation names an existing room |
| RateLimit.Check | supabase/functions/apply-color/index.ts:16-25 | a first request, or one after the window closed, opens a fresh window (count 1, closes 60 s later) and passes. Otherwise the count rises, including while limited, and the request is limited iff the count exceeds the maximum. No other client's entry changes |
| RateLimit.NthRequestInWindow | supabase/functions/analyze-room/index.ts:15-24 | within one window, request number i+1 is limited iff i+1 exceeds the maximum, so a limited client stays limited until the window ends |
| RateLimit.RunInWindow | supabase/functions/apply-color/index.ts:16-25 | while a window stays open, each further request is limited iff the running count exceeds the maximum |
| RateLimit.RunIsolatesKeys | supabase/functions/apply-color/index.ts:16-25 | any series of requests from one client leaves every other client's entry as it was |
| RateLimit.ClientKey | supabase/functions/apply-color/index.ts:52 | the key is the trimmed text before the first comma of `x-forwarded-for`, or "unknown" when the header is missing or that text is blank. It is therefore non-empty, comma-free and trimmed |
| RateLimit.FirstEntryIsFirstPart | supabase/functions/apply-color/index.ts:52 | `split(",")[0]` is exactly the text before the first comma (the whole header when there is none) |
| ApplyColor.RequestOf | supabase/functions/apply-color/index.ts:61-62 | destructuring fails exactly on a `null` body |
| ApplyColor.Validate | supabase/functions/apply-color/index.ts:64-92 | the request is valid iff all four checks pass. Each error is reported exactly when its check is the first to fail, in source order: image, format, element type, colour |
| ApplyColor.HexAcceptsOddLengths | supabase/functions/apply-color/index.ts:9 | the colour pattern accepts 5 and 7 hex digits, and rejects 2 and 9 digits or a missing `#` |
| ApplyColor.Sanitize | supabase/functions/apply-color/index.ts:95-98 | the result has at most 100 characters, all in `[\w\sÀ-ÿ-]`. It is the allowed characters of the first 100, in order, each as often as there: every other character is dropped. A clean short string is unchanged |
| ApplyColor.SanitizeDropsMarkup | supabase/functions/apply-color/index.ts:95 | `<tag>text</tag>` made of word characters reaches the prompt as `tagtexttag` |
| ApplyColor.SafeColorName | supabase/functions/apply-color/index.ts:96-98 | the sanitised colour name when it is a string, else the validated hex colour |
| ApplyColor.PollDelay | supabase/functions/apply-color/index.ts:41 | the wait between polls is between 1 s and 3 s |
| ApplyColor.PollDelayMonotone | supabase/functions/apply-color/index.ts:41 | the wait never shrinks as the job runs longer |
| ApplyColor.PollFrom | supabase/functions/apply-color/index.ts:28-44 | the loop returns on "succeeded" with that poll's prediction, stops on a non-OK reply or on "failed"/"canceled", and otherwise polls again. All polls before the last were pending. The budget is re-checked before every poll on the loop's own clock (`Clock`: the start time plus each reply's latency and the wait after it), so every poll made started inside the budget. A timeout happens at the first poll start where that clock has reached the budget, and it reports that clock as elapsed time. A success reports the clock when its reply arrived. Once the budget is spent at the start, the loop times out without polling, and before that it always polls. The number of polls is bounded by the budget over 1 s |
| ApplyColor.PollSucceedsWithinBudget | supabase/functions/apply-color/index.ts:28-44 | when n pending polls are followed by a succeeded one, all inside the budget on the clock the loop keeps, the loop returns that prediction after n+1 polls at the time the last reply arrived |
| ApplyColor.NeverTerminalTimesOut | supabase/functions/apply-color/index.ts:28-44 | a job that never finishes times out after at most 120 polls under the two-minute budget |
| ApplyColor.ExtractImage | supabase/functions/apply-color/index.ts:150-157 | the first item of a non-empty array, a string itself, otherwise nothing |
| ApplyColor.Deliver | supabase/functions/apply-color/index.ts:159-173 | status 200 in both cases: the image when the extracted URL is truthy, else the soft failure echoing the original image |
| ApplyColor.CallProvider | supabase/functions/apply-color/index.ts:127-147 | 422 iff the create call answered 422, with the rejection message; any other failed create call gives 500. 200 iff the create call succeeded and either the prediction was already finished or it had a poll URL and the poll loop succeeded, and then the answer is the delivery of that prediction's output. Any other outcome is an error body |
| ApplyColor.Process | supabase/functions/apply-color/index.ts:60-173 | a missing or `null` body fails with 500. 400 iff the body destructures and validation rejects it, with that check's message and no call. Without an API key a valid request fails with 500. Otherwise the provider is called with the sanitised element type, the safe colour name and the hex, and its answer is the response |
| ApplyColor.Handle | supabase/functions/apply-color/index.ts:51-58 | the limiter runs first and its table is updated either way. A limited request gets 429 without a call; otherwise the answer is that of the rest of the handler |
| ApplyColor.PromptIsSanitized | supabase/functions/apply-color/index.ts:94-105 | every call's prompt parts are sanitised: the element type is short and clean, the colour name is clean or the hex, and the colour is a valid hex |
| ApplyColor.InvalidNeverCallsProvider | supabase/functions/apply-color/index.ts:64-92 | a rejected request answers 400 with its message and no provider call |
| ApplyColor.NoRetryOnServerError | supabase/functions/apply-color/index.ts:127-138 | a failing create call other than 422 gives 500 after that one call, whatever the polls would answer |
| AnalyzeRoom.KindName | src/types/project.ts:4 | every element kind's name is read back as that kind |
| AnalyzeRoom.KindOf | src/types/project.ts:4 | exactly the six names of the type union denote kinds |
| AnalyzeRoom.KindNameInjective | src/types/project.ts:4 | distinct kinds have distinct names |
| AnalyzeRoom.DefaultsMatchEditor | supabase/functions/analyze-room/index.ts:197-202 | the server's default elements are the editor's defaults (`src/types/project.ts` lines 29-34): same order, ids, names and kinds, all paintable |
| AnalyzeRoom.CheckImage | supabase/functions/analyze-room/index.ts:44-63 | the image is accepted iff it is a non-empty string of at most 10 000 000 characters starting with `data:image/`. Each message appears exactly when its check is the first to fail |
| AnalyzeRoom.OptGet | supabase/functions/analyze-room/index.ts:179 | optional chaining: `null` gives `undefined`, anything else is read as `.key` |
| AnalyzeRoom.OptFirst | supabase/functions/analyze-room/index.ts:179 | `?.[0]`: a non-empty array gives its first item. `null`, `undefined`, booleans and numbers give `undefined` |
| AnalyzeRoom.ToolArguments | supabase/functions/analyze-room/index.ts:179-180 | the chain fails only when the reply body itself is `null`. Falsy or empty `choices`, or a first choice without truthy, non-empty `tool_calls`, give `undefined` |
| AnalyzeRoom.NoToolCallGivesDefaults | supabase/functions/analyze-room/index.ts:177-205 | a 200 reply whose first choice has no tool call answers 200 with the default elements and the success description |
| AnalyzeRoom.ReplyWith | supabase/functions/analyze-room/index.ts:179-180 | a well-formed reply's arguments are found by the chain |
| AnalyzeRoom.Interpret | supabase/functions/analyze-room/index.ts:158-226 | 429 and 402 are passed through exactly when the gateway gave them. The parsed tool arguments are returned when present and parsable; the default elements are returned with the success description when the arguments are falsy; every other outcome is the 200 fallback |
| AnalyzeRoom.Process | supabase/functions/analyze-room/index.ts:40-68 | a missing or `null` body, and a valid image without an API key, are answered with status 200 and the fallback carrying the default elements, without calling the gateway. 400 iff the image check fails, with that check's message. Otherwise the gateway receives exactly the validated image and its reply is interpreted into the answer |
| AnalyzeRoom.Handle | supabase/functions/analyze-room/index.ts:31-38 | the limiter runs first; a limited request gets 429 and nothing is sent |
| AnalyzeRoom.NeverServerError | supabase/functions/analyze-room/index.ts:209-226 | the function never answers 5xx, and a 200 without analysis carries the default elements |
| AnalyzeRoom.ToolCallPassedThrough | supabase/functions/analyze-room/index.ts:179-190 | a parsable tool call is returned untouched |
| AnalyzeRoom.UnparsableArgumentsFallBack | supabase/functions/analyze-room/index.ts:181 | arguments that do not parse give the 200 fallback |
| Report.EscapeChar | supabase/functions/generate-pdf/index.ts:8-15 | each of `& < > " '` becomes its entity and any other character is kept; no replacement contains markup |
| Report.Escape | supabase/functions/generate-pdf/index.ts:8-15 | the escaped string contains no `< > " '` and is at least as long |
| Report.EscapeHtmlIsCharwise | supabase/functions/generate-pdf/index.ts:8-15 | the five global replacements, ampersand first, equal escaping each character on its own |
| Report.EscapeHtmlInert | supabase/functions/generate-pdf/index.ts:8-15 | no `<`, `>`, `"` or `'` survives `escapeHtml` |
| Report.EscapeHtmlIdentity | supabase/functions/generate-pdf/index.ts:8-15 | a string free of the five characters is unchanged |
| Report.UnescapeEscapeHtml | supabase/functions/generate-pdf/index.ts:8-15 | decoding the five entities recovers the input, so nothing is escaped twice |
| Report.AmpersandStartsEntity | supabase/functions/generate-pdf/index.ts:10 | every `&` in escaped text starts one of the five entities |
| Report.DataUrlChecksOnlyPrefix | supabase/functions/generate-pdf/index.ts:17-19 | whatever follows an accepted data-URL prefix is accepted |
| Report.DataUrlAcceptsListedTypes | supabase/functions/generate-pdf/index.ts:18 | each of the six image types followed by `;base64,` is accepted |
| Report.HexColorShape | supabase/functions/generate-pdf/index.ts:21-23 | a colour is valid iff it is `#` followed by three to eight hex digits |
| Report.CappedText | supabase/functions/generate-pdf/index.ts:67-69 | a string gives its prefix of length min(length, n) (the whole of a short one); anything else gives nothing |
| Report.CheckedImage | supabase/functions/generate-pdf/index.ts:74-75 | the image is kept iff it is a string that passes the validator; anything else becomes the empty string |
| Report.SanitizeElement | supabase/functions/generate-pdf/index.ts:64-70 | a `null` element throws. Otherwise the result is clean (bounded texts, valid hex or no colour). The name is the prefix of length min(length, 100) of the given one. The colour is kept iff it is valid hex. The colour name, code and brand are each the given string capped at its limit, or nothing |
| Report.SanitizeElements | supabase/functions/generate-pdf/index.ts:64-70 | the map throws iff some element is `null`; otherwise count and order are kept |
| Report.CheckRoom | supabase/functions/generate-pdf/index.ts:50-77 | a room throws, is rejected for its name, or is rejected for its elements exactly under the source's conditions, in that order. It passes iff it is not `null`, its name and element list pass, and every element sanitises. A passing room keeps its name and holds the sanitised elements and the checked images |
| Report.SanitizeRooms | supabase/functions/generate-pdf/index.ts:50-78 | all rooms pass iff each passes, keeping count and order. Otherwise the failure is that of the first room that fails |
| Report.Generate | supabase/functions/generate-pdf/index.ts:30-103 | a missing or `null` body fails with 500. Missing or empty rooms give 400 "No rooms provided" and more than 20 give 400 "Too many rooms (max 20)". Otherwise the answer is 200 with the sanitised rooms, one per submitted room; the first room rejected gives 400 with its message; a thrown error gives 500 |
| Report.OneBadRoomRejectsAll | supabase/functions/generate-pdf/index.ts:50-62 | one room that fails its checks rejects the whole request |
| Report.OrElse | supabase/functions/generate-pdf/index.ts:128-132 | `v || fallback`: the value when it is a non-empty string, the fallback otherwise |
| Report.ElementSlots | supabase/functions/generate-pdf/index.ts:125-133 | an element row has five cells: the name, the swatch colour, then colour name, code and brand. The swatch is the element's colour when it is a non-empty string, otherwise the grey `#eee`. The last three are the element's colour name, code and brand when each is a non-empty string, otherwise a dash. A sanitised element's swatch colour contains none of `< > " '` |
| Report.RowSlots | supabase/functions/generate-pdf/index.ts:123-134 | five interpolations per element, in element order |
| Report.RoomSlots | supabase/functions/generate-pdf/index.ts:122-161 | a room section interpolates the 1-based room number, the room name, the original and processed image URLs, then the element rows in order |
| Report.EmitAsWritten | supabase/functions/generate-pdf/index.ts:126-148 | as the template is written: a number is written as its decimal digits, which read back as that number. A text content is written escaped: it contains none of `< > " '`, and decoding the entities gives back the text. The image URL and the swatch colour are written verbatim |
| Report.Emit | supabase/functions/generate-pdf/index.ts:126-148 | the corrected template writes every value except the swatch colour free of `< > " '`, and decoding the entities of a written text or image URL gives back that value. A number is written as its decimal digits. It differs from the as-written template only on image URLs, and it keeps a URL unchanged when the URL has no character that needs escaping |
| Report.BackgroundInert | supabase/functions/generate-pdf/index.ts:128 | the raw `background:` value of a sanitised element holds no markup character |
| Report.SourceBreaksOut | supabase/functions/generate-pdf/index.ts:144 | a room whose image URL passes the validator can still close the `src` attribute when written raw |
| Report.RoomSlotsInert | supabase/functions/generate-pdf/index.ts:121-166 | in the corrected template, every value written for a sanitised room is free of `< > " '` |
| Report.EscapeKeepsDataUrls | supabase/functions/generate-pdf/index.ts:144-148 | escaping the URL leaves every genuine base64 image unchanged |
| Admin.CollapseSpace | src/pages/AdminDashboard.tsx:110 | no white space remains, a string without white space is unchanged, and the result is no longer than the input |
| Admin.CollapseSpaceWord | src/pages/AdminDashboard.tsx:110 | a leading word without white space is copied unchanged |
| Admin.CollapseSpaceLeadRun | src/pages/AdminDashboard.tsx:110 | a leading maximal run of white space becomes exactly one `-` |
| Admin.CollapseSpaceRun | src/pages/AdminDashboard.tsx:110 | a run of white space between two words becomes exactly one `-` |
| Admin.Slug | src/pages/AdminDashboard.tsx:110 | the result is a slug (`[a-z0-9-]*`): exactly the allowed characters of the lower-cased, dash-joined input, in order and each as often as there |
| Admin.SlugOfSlug | src/pages/AdminDashboard.tsx:116 | a slug is its own slug |
| Admin.SlugIdempotent | src/pages/AdminDashboard.tsx:110 | normalising twice is normalising once |
| Admin.NameChanged | src/pages/AdminDashboard.tsx:107-112 | the name changes; the slug follows it until it has been edited by hand |
| Admin.SlugChanged | src/pages/AdminDashboard.tsx:114-117 | the flag is set for good, and the slug is the typed value's slug, hence always a slug. A typed slug that is already clean is kept |
| Admin.ReplayKeepsValid | src/pages/AdminDashboard.tsx:107-117 | after any sequence of edits the slug is a slug, and it is the name's slug while never edited by hand |
| Admin.EditedSlugSticks | src/pages/AdminDashboard.tsx:109 | after a hand edit, later name changes never touch the slug |
| Admin.SubmitSlug | src/pages/AdminDashboard.tsx:60 | same length, a slug, and a character is kept (lower-cased) exactly when it is allowed; every other character becomes `-` |
| Admin.CreateCompany | src/pages/AdminDashboard.tsx:58-66 | nothing happens iff the name or the slug is empty; otherwise the name and a slug of the same length are submitted |
| Admin.SubmitKeepsHandlerSlug | src/pages/AdminDashboard.tsx:58-117 | the company is created with exactly the slug the form shows |
| Admin.ExportCsv | src/pages/AdminDashboard.tsx:119-123 | nothing for an empty list; otherwise the text starts with the header |
| Admin.ParseFields | src/pages/AdminDashboard.tsx:143-151 | a paint is made iff there are at least three fields. Name and code are the first two fields. The hex is the third field when it starts with `#`, else `#` followed by it. The category is the fourth field, or "neutros" when it is missing or empty |
| Admin.ParseLine | src/pages/AdminDashboard.tsx:143-144 | a line gives a paint iff it has at least three comma-separated fields. The name, code, hex and category come from the trimmed fields 0 to 3 by the rules of the field parser |
| Admin.WithHash | src/pages/AdminDashboard.tsx:149 | a hex that starts with `#` is kept, any other gets `#` in front |
| Text.Trim | src/pages/AdminDashboard.tsx:144 | `trim()`: the result is the input with its leading and trailing white space removed. It is empty iff the input is all white space, and a trimmed string is unchanged |
| Admin.Lines | src/pages/AdminDashboard.tsx:138 | the kept lines are exactly the non-blank parts of the newline split, in order and each as often as there; none contains a newline |
| Admin.FirstDataLine | src/pages/AdminDashboard.tsx:140 | the first line is skipped iff its lower-case form contains "nome" |
| Admin.ImportOf | src/pages/AdminDashboard.tsx:138-154 | what an import submits: at most one paint per line after the header, and every paint has a hex starting with `#` and a non-empty category |
| Admin.ImportCsv | src/pages/AdminDashboard.tsx:134-154 | nothing without a file or an active catalogue. Otherwise the paints submitted, in order, and the counter, which equals their number |
| Admin.HeaderMentionsNome | src/pages/AdminDashboard.tsx:121 | the exported header is recognised and skipped by the import |
| Admin.ImportExport | src/pages/AdminDashboard.tsx:119-154 | importing an export gives back the exported paints in order, for non-empty lists whose fields survive the CSV format |
| Catalog.FilterColors | src/components/editor/ColorCatalog.tsx:19-30 | a subsequence of the catalogue holding exactly the matching colours, each as often as in the catalogue, each satisfying the brand and category filters |
| Catalog.NoFilterShowsAll | src/components/editor/ColorCatalog.tsx:15-17 | the initial filters (empty query, "all", "all") show the whole catalogue |
| Catalog.SearchIgnoresCase | src/components/editor/ColorCatalog.tsx:22-23 | the result depends on the query only through its lower-case form |
| Catalog.BrandNarrows | src/components/editor/ColorCatalog.tsx:25 | choosing a brand can only remove colours from the "all" result |
| Catalog.CategoryNarrows | src/components/editor/ColorCatalog.tsx:26 | choosing a category can only remove colours from the "all" result |
| Catalog.LongerQueryNarrows | src/components/editor/ColorCatalog.tsx:21-23 | typing more can only remove colours |

## Left out

- HTTP plumbing is left out, because it carries no logic of the core: CORS headers, the OPTIONS pre-flight, JSON serialisation, and `console.error` logging.
- The prompt text, model names and model parameters of the two AI calls are left out, because they are constant strings. The model records only the sanitised parts interpolated into the prompt.
- The HTML encoding of the report is left out, because it is an I/O encoding: `TextEncoder`, the 8192-byte chunking, `btoa` and the `data:text/html` URL. The template's fixed markup and styles are left out too. The report is modelled by the values it interpolates and the context of each.
- Admin.CollapseSpace: its own contract states the shape of the result; the rewrite itself (words copied, each maximal run of white space turned into one `-`) is stated by Admin.CollapseSpaceWord, Admin.CollapseSpaceLeadRun and Admin.CollapseSpaceRun, which together determine it.
- Report.Generate: stops at the sanitised rooms and does not build the HTML string.
- Concurrency is left out: the limiter and every hook update are single atomic steps, because JavaScript runs one handler at a time.
- Project.AddRoom: the hook computes the default name from the rendered `state.rooms.length`, which can be stale, while it appends to the latest state. The model uses the single current state.
- Letter case is modelled on ASCII only (`toLowerCase`), because Unicode case mapping tables are out of scope. Strings are sequences of UTF-16 code units; surrogate pairs are not modelled.
- Numbers in request bodies are integers, because floating point is not modelled.
- ApplyColor.PollDelay: truncates the fractional milliseconds of `(now - start) / 10`. Each poll's latency is a whole number of milliseconds.
- Database and storage calls are left out, because they are foreign calls: `createCompany`, `addPaint`, `loadPaints`, logo upload and catalogues in `useCompany`.
  - The import returns the paints it would submit, and ignores the result of each `addPaint`.
  - `is_public: true` is a constant of every submission.
- The toast messages, routing and the remaining React views are left out, because they are presentation only. This covers the editor view, the paints list, the landing pages and the file inputs.
- Report.EmitAsWritten: shows the em dash placeholder as U+2014. The dash in the source text is stored mis-encoded, which does not change any property here.
- Validators written as regular expressions are modelled by the languages they accept (`IsHexColor`, `IsValidDataUrl`, `IsPromptSafe`), because Dafny has no regular expressions.

## Findings

| source | as written | input that shows it | evidently intended | confidence | as-written member | corrected member |
|---|---|---|---|---|---|---|
| supabase/functions/generate-pdf/index.ts:17-19, 144, 148 | the image data URLs are written raw into `<img src="...">`. The validator checks only the prefix (`^data:image/png;base64,` with no end anchor), so any text may follow | a room with `originalImage` = `data:image/png;base64," onerror="alert(1)` passes validation and closes the attribute | every interpolated value stays inside its attribute: the URL is escaped like the other text (or fully validated as base64) | medium, not executed | Report.EmitAsWritten, Report.SourceBreaksOut | Report.Emit, Report.RoomSlotsInert, Report.EscapeKeepsDataUrls |

=== FILE: admin.dfy ===
/** The text transforms of the admin dashboard: the company slug with its
    "edited by hand" flag, company creation, and the CSV export and import of
    a catalogue's paints. The database calls are left out; the import returns
    the paints it would submit, in submission order. */
module Admin {
  import opened Optional
  import Text
  import Seqs

  // ------------------------------------------------------------ slug

  /** `[a-z0-9-]` */
  predicate IsSlugChar(c: char) {
    Text.IsLower(c) || Text.IsDigit(c) || c == '-'
  }

  predicate IsSlug(s: string) {
    Text.AllChars(s, IsSlugChar)
  }

  predicate NoSpace(s: string) {
    forall i :: 0 <= i < |s| ==> !Text.IsSpace(s[i])
  }

  /** `s.replace(/\s+/g, '-')`: every maximal run of white space becomes one `-`. */
  function CollapseSpace(s: string): (r: string)
    ensures NoSpace(r)
    ensures NoSpace(s) ==> r == s
    ensures |r| <= |s|
    decreases |s|
  {
    if |s| == 0 then ""
    else if Text.IsSpace(s[0]) then
      var rest := Text.TrimStart(s);
      "-" + CollapseSpace(rest)
    else
      assert NoSpace(s) ==> NoSpace(s[1..]) by {
        if NoSpace(s) { assert forall i :: 0 <= i < |s| - 1 ==> s[1..][i] == s[i + 1]; }
      }
      [s[0]] + CollapseSpace(s[1..])
  }

  /** A word in front is copied unchanged. */
  lemma {:induction false} CollapseSpaceWord(w: string, t: string)
    requires NoSpace(w)
    ensures CollapseSpace(w + t) == w + CollapseSpace(t)
    decreases |w|
  {
    if |w| == 0 {
      assert w + t == t;
    } else {
      var c, tail := w[0], w[1..];
      NoSpaceTail(w);
      CollapseSpaceWord(tail, t);
      CollapseSpaceCons(c, tail + t);
      assert w == [c] + tail;
      ConsAppend(c, tail, t);
      ConsAppend(c, tail, CollapseSpace(t));
    }
  }

  lemma ConsAppend(c: char, a: string, b: string)
    ensures [c] + (a + b) == ([c] + a) + b
  {
  }

  /** A maximal run of white space in front becomes exactly one dash. */
  lemma CollapseSpaceLeadRun(spaces: string, t: string)
    requires |spaces| > 0 && Text.AllChars(spaces, Text.IsSpace)
    requires |t| == 0 || !Text.IsSpace(t[0])
    ensures CollapseSpace(spaces + t) == "-" + CollapseSpace(t)
  {
    var s := spaces + t;
    assert s[0] == spaces[0];
    CollapseSpaceLead(s);
    if |t| == 0 {
      assert s == spaces;
      assert Text.TrimStart(s) == "";
    } else {
      TrimStartRun(spaces, t);
    }
  }

  /** A run of white space between two words turns into exactly one dash. */
  lemma {:induction false} CollapseSpaceRun(a: string, spaces: string, b: string)
    requires NoSpace(a) && NoSpace(b) && |b| > 0
    requires |spaces| > 0 && Text.AllChars(spaces, Text.IsSpace)
    ensures CollapseSpace(a + spaces + b) == a + "-" + b
    decreases |a|
  {
    if |a| == 0 {
      CollapseSpaceRunStart(spaces, b);
      EmptyPrefix(a, spaces, b);
      EmptyPrefix(a, "-", b);
    } else {
      NoSpaceTail(a);
      CollapseSpaceRun(a[1..], spaces, b);
      CollapseSpaceRunStep(a, spaces, b);
    }
  }

  lemma CollapseSpaceRunStart(spaces: string, b: string)
    requires NoSpace(b) && |b| > 0
    requires |spaces| > 0 && Text.AllChars(spaces, Text.IsSpace)
    ensures CollapseSpace(spaces + b) == "-" + b
  {
    var s := spaces + b;
    assert s[0] == spaces[0];
    CollapseSpaceLead(s);
    TrimStartRun(spaces, b);
  }

  lemma CollapseSpaceRunStep(a: string, spaces: string, b: string)
    requires |a| > 0 && !Text.IsSpace(a[0])
    requires CollapseSpace(a[1..] + spaces + b) == a[1..] + "-" + b
    ensures CollapseSpace(a + spaces + b) == a + "-" + b
  {
    var t := a[1..] + spaces + b;
    calc {
      CollapseSpace(a + spaces + b);
      { ConsSplit(a, spaces, b); }
      CollapseSpace([a[0]] + t);
      { CollapseSpaceCons(a[0], t); }
      [a[0]] + CollapseSpace(t);
      [a[0]] + (a[1..] + "-" + b);
      { ConsSplit(a, "-", b); }
      a + "-" + b;
    }
  }

  lemma EmptyPrefix<T>(a: seq<T>, m: seq<T>, b: seq<T>)
    requires |a| == 0
    ensures a + m + b == m + b
  {
    assert a + m == m;
  }

  lemma ConsSplit<T>(a: seq<T>, m: seq<T>, b: seq<T>)
    requires |a| > 0
    ensures [a[0]] + (a[1..] + m + b) == a + m + b
  {
    assert a == [a[0]] + a[1..];
  }

  /** A leading run of white space becomes one dash. */
  lemma CollapseSpaceLead(s: string)
    requires |s| > 0 && Text.IsSpace(s[0])
    ensures CollapseSpace(s) == "-" + CollapseSpace(Text.TrimStart(s))
  {
  }

  /** Any other character is copied. */
  lemma CollapseSpaceCons(c: char, t: string)
    requires !Text.IsSpace(c)
    ensures CollapseSpace([c] + t) == [c] + CollapseSpace(t)
  {
    assert ([c] + t)[1..] == t;
  }

  lemma NoSpaceTail(a: string)
    requires |a| > 0 && NoSpace(a)
    ensures !Text.IsSpace(a[0]) && NoSpace(a[1..])
  {
    assert forall i :: 0 <= i < |a| - 1 ==> a[1..][i] == a[i + 1];
  }

  lemma {:induction false} TrimStartRun(spaces: string, b: string)
    requires |b| > 0 && !Text.IsSpace(b[0])
    requires Text.AllChars(spaces, Text.IsSpace)
    ensures Text.TrimStart(spaces + b) == b
    decreases |spaces|
  {
    if |spaces| == 0 {
      assert spaces + b == b;
    } else {
      assert (spaces + b)[1..] == spaces[1..] + b;
      TrimStartRun(spaces[1..], b);
    }
  }

  /** The slug the handlers store:
      `value.toLowerCase().replace(/\s+/g, '-').replace(/[^a-z0-9-]/g, '')`. */
  function Slug(value: string): (r: string)
    ensures IsSlug(r)
    ensures Seqs.IsSubseq(r, CollapseSpace(Text.Lower(value)))
    ensures forall c :: multiset(r)[c] == if IsSlugChar(c) then multiset(CollapseSpace(Text.Lower(value)))[c] else 0
    ensures |r| <= |value|
  {
    var collapsed := CollapseSpace(Text.Lower(value));
    Seqs.Filter(collapsed, IsSlugChar)
  }

  /** A slug is its own slug: lower-case, no white space, nothing to delete. */
  lemma SlugOfSlug(s: string)
    requires IsSlug(s)
    ensures Slug(s) == s
  {
    assert forall i :: 0 <= i < |s| ==> !Text.IsUpper(s[i]) && !Text.IsSpace(s[i]) by {
      forall i | 0 <= i < |s| ensures !Text.IsUpper(s[i]) && !Text.IsSpace(s[i]) {
        assert IsSlugChar(s[i]);
      }
    }
    Text.LowerOfLower(s);
    assert NoSpace(s);
    assert CollapseSpace(Text.Lower(s)) == s;
    Seqs.FilterKeepsAll(s, IsSlugChar);
  }

  /** Normalising twice is normalising once. */
  lemma SlugIdempotent(value: string)
    ensures Slug(Slug(value)) == Slug(value)
  {
    SlugOfSlug(Slug(value));
  }

  /** The company form: name, slug, and whether the slug was edited by hand. */
  datatype CompanyForm = CompanyForm(name: string, slug: string, slugEdited: bool)

  const EmptyForm: CompanyForm := CompanyForm("", "", false)

  /** `handleCompanyNameChange`: the slug follows the name until edited by hand. */
  function NameChanged(f: CompanyForm, value: string): (r: CompanyForm)
    ensures r.name == value && r.slugEdited == f.slugEdited
    ensures f.slugEdited ==> r.slug == f.slug
    ensures !f.slugEdited ==> r.slug == Slug(value)
  {
    if f.slugEdited then f.(name := value) else f.(name := value, slug := Slug(value))
  }

  /** `handleSlugChange`: the typed slug is normalised and the flag is set for good. */
  function SlugChanged(f: CompanyForm, value: string): (r: CompanyForm)
    ensures r.name == f.name && r.slugEdited
    ensures r.slug == Slug(value)
    ensures IsSlug(r.slug)
    ensures IsSlug(value) ==> r.slug == value
  {
    assert IsSlug(value) ==> Slug(value) == value by {
      if IsSlug(value) { SlugOfSlug(value); }
    }
    f.(slugEdited := true, slug := Slug(value))
  }

  datatype FormEvent = TypeName(name: string) | TypeSlug(slug: string)

  function Step(f: CompanyForm, e: FormEvent): CompanyForm {
    match e
    case TypeName(v) => NameChanged(f, v)
    case TypeSlug(v) => SlugChanged(f, v)
  }

  function Replay(f: CompanyForm, events: seq<FormEvent>): CompanyForm
    decreases |events|
  {
    if |events| == 0 then f else Replay(Step(f, events[0]), events[1..])
  }

  /** The form invariant: the stored slug is always a slug, and it is the
      slug of the name as long as it was never edited by hand. */
  predicate FormValid(f: CompanyForm) {
    IsSlug(f.slug) && (!f.slugEdited ==> f.slug == Slug(f.name))
  }

  lemma {:induction false} ReplayKeepsValid(f: CompanyForm, events: seq<FormEvent>)
    requires FormValid(f)
    ensures FormValid(Replay(f, events))
    decreases |events|
  {
    if |events| > 0 {
      ReplayKeepsValid(Step(f, events[0]), events[1..]);
    }
  }

  /** Once the slug is edited by hand, later name changes never touch it. */
  lemma {:induction false} EditedSlugSticks(f: CompanyForm, events: seq<FormEvent>)
    requires f.slugEdited
    requires forall i :: 0 <= i < |events| ==> events[i].TypeName?
    ensures Replay(f, events).slug == f.slug && Replay(f, events).slugEdited
    decreases |events|
  {
    if |events| > 0 {
      EditedSlugSticks(Step(f, events[0]), events[1..]);
    }
  }

  /** The submit-time transform: `slug.toLowerCase().replace(/[^a-z0-9-]/g, '-')`. */
  function SubmitSlug(slug: string): (r: string)
    ensures |r| == |slug| && IsSlug(r)
    ensures forall i :: 0 <= i < |slug| ==> (IsSlugChar(Text.LowerChar(slug[i])) <==> r[i] == Text.LowerChar(slug[i]))
    ensures forall i :: 0 <= i < |slug| ==> !IsSlugChar(Text.LowerChar(slug[i])) ==> r[i] == '-'
    decreases |slug|
  {
    if |slug| == 0 then ""
    else
      var c := Text.LowerChar(slug[0]);
      [if IsSlugChar(c) then c else '-'] + SubmitSlug(slug[1..])
  }

  /** `handleCreateCompany`: nothing happens while the name or the slug is
      empty; otherwise the name and the submitted slug go to the store. */
  function CreateCompany(f: CompanyForm): (r: Option<(string, string)>)
    ensures r.None? <==> f.name == "" || f.slug == ""
    ensures r.Some? ==> r.value.0 == f.name && IsSlug(r.value.1) && |r.value.1| == |f.slug|
  {
    if f.name == "" || f.slug == "" then None else Some((f.name, SubmitSlug(f.slug)))
  }

  /** On a slug the handlers produced, the submit transform changes nothing:
      the company is created with exactly the slug the form shows. */
  lemma SubmitKeepsHandlerSlug(events: seq<FormEvent>)
    ensures var f := Replay(EmptyForm, events);
      f.name != "" && f.slug != "" ==> CreateCompany(f) == Some((f.name, f.slug))
  {
    assert Slug("") == "" by {
      assert Text.Lower("") == "" && CollapseSpace("") == "";
    }
    ReplayKeepsValid(EmptyForm, events);
    SubmitSlugOfSlug(Replay(EmptyForm, events).slug);
  }

  lemma {:induction false} SubmitSlugOfSlug(slug: string)
    requires IsSlug(slug)
    ensures SubmitSlug(slug) == slug
    decreases |slug|
  {
    if |slug| > 0 {
      SubmitSlugOfSlug(slug[1..]);
      assert slug == [slug[0]] + slug[1..];
    }
  }

  // ------------------------------------------------------------ CSV

  /** The paint fields the CSV carries. */
  datatype PaintRow = PaintRow(name: string, code: string, hex: string, category: string)

  const Header: string := "nome,codigo,hex,categoria"
  const DefaultCategory: string := "neutros"

  /** `${p.name},${p.code},${p.hex},${p.category}` */
  function ExportRow(p: PaintRow): string {
    Text.Join([p.name, p.code, p.hex, p.category], ',')
  }

  function ExportRows(paints: seq<PaintRow>): (r: seq<string>)
    ensures |r| == |paints|
    ensures forall i :: 0 <= i < |paints| ==> r[i] == ExportRow(paints[i])
    decreases |paints|
  {
    if |paints| == 0 then [] else [ExportRow(paints[0])] + ExportRows(paints[1..])
  }

  /** `handleExportCSV`: nothing for an empty list, otherwise the header and one
      line per paint joined by newlines. */
  function ExportCsv(paints: seq<PaintRow>): (r: Option<string>)
    ensures r.None? <==> |paints| == 0
    ensures r.Some? ==> Header <= r.value
  {
    if |paints| == 0 then None
    else
      var rows := ExportRows(paints);
      assert [Header] + rows == [Header] + rows[..];
      JoinStartsWithFirst([Header] + rows, '\n');
      Some(Text.Join([Header] + rows, '\n'))
  }

  lemma JoinStartsWithFirst(parts: seq<string>, sep: char)
    requires |parts| >= 1
    ensures parts[0] <= Text.Join(parts, sep)
  {
  }

  /** `l.trim()` is truthy. */
  predicate NotBlank(line: string) {
    Text.Trim(line) != ""
  }

  function TrimAll(parts: seq<string>): (r: seq<string>)
    ensures |r| == |parts|
    ensures forall i :: 0 <= i < |parts| ==> r[i] == Text.Trim(parts[i])
    decreases |parts|
  {
    if |parts| == 0 then [] else [Text.Trim(parts[0])] + TrimAll(parts[1..])
  }

  /** `hex.startsWith('#') ? hex : '#' + hex` */
  function WithHash(hex: string): (r: string)
    ensures "#" <= r
    ensures "#" <= hex ==> r == hex
    ensures !("#" <= hex) ==> r == "#" + hex
  {
    if "#" <= hex then hex else "#" + hex
  }

  /** One line of the import: at least three trimmed fields make a paint. */
  function ParseLine(line: string): (r: Option<PaintRow>)
    ensures r.Some? <==> |Text.Split(line, ',')| >= 3
    ensures r.Some? ==>
      var parts := Text.Split(line, ',');
      && r.value.name == Text.Trim(parts[0]) && r.value.code == Text.Trim(parts[1])
      && r.value.hex == WithHash(Text.Trim(parts[2]))
      && (|parts| >= 4 && Text.Trim(parts[3]) != "" ==> r.value.category == Text.Trim(parts[3]))
      && (|parts| < 4 || Text.Trim(parts[3]) == "" ==> r.value.category == DefaultCategory)
  {
    ParseFields(TrimAll(Text.Split(line, ',')))
  }

  /** `const [name, code, hex, category] = parts`: the hex gets its `#`, and a
      missing or empty fourth field becomes the default category. */
  function ParseFields(parts: seq<string>): (r: Option<PaintRow>)
    ensures r.Some? <==> |parts| >= 3
    ensures r.Some? ==> r.value.name == parts[0] && r.value.code == parts[1]
    ensures r.Some? ==> "#" <= r.value.hex && r.value.category != ""
    ensures r.Some? && "#" <= parts[2] ==> r.value.hex == parts[2]
    ensures r.Some? && !("#" <= parts[2]) ==> r.value.hex == "#" + parts[2]
    ensures r.Some? && |parts| >= 4 && parts[3] != "" ==> r.value.category == parts[3]
    ensures r.Some? && (|parts| < 4 || parts[3] == "") ==> r.value.category == DefaultCategory
  {
    if |parts| < 3 then None
    else
      var category := if |parts| >= 4 && parts[3] != "" then parts[3] else DefaultCategory;
      Some(PaintRow(parts[0], parts[1], WithHash(parts[2]), category))
  }

  /** The lines that survive the blank-line filter. */
  function Lines(text: string): (r: seq<string>)
    ensures forall i :: 0 <= i < |r| ==> NotBlank(r[i]) && NoNewline(r[i])
    ensures Seqs.IsSubseq(r, Text.Split(text, '\n'))
    ensures forall l :: multiset(r)[l] == if NotBlank(l) then multiset(Text.Split(text, '\n'))[l] else 0
  {
    var parts := Text.Split(text, '\n');
    Seqs.FilterKeeps(parts, NotBlank, NoNewline);
    Seqs.Filter(parts, NotBlank)
  }

  predicate NoNewline(line: string) {
    '\n' !in line
  }

  /** The header is skipped exactly when the first line mentions "nome". */
  function FirstDataLine(lines: seq<string>): (start: nat)
    ensures start <= |lines| && start <= 1
    ensures start == 1 <==> |lines| > 0 && Text.Contains(Text.Lower(lines[0]), "nome")
  {
    if |lines| > 0 && Text.Contains(Text.Lower(lines[0]), "nome") then 1 else 0
  }

  /** What an import of `text` submits: at most one paint per data line, and
      every one of them with a `#` hex and a category. */
  function ImportOf(text: string): (r: seq<PaintRow>)
    ensures |r| <= |Lines(text)| - FirstDataLine(Lines(text))
    ensures forall i :: 0 <= i < |r| ==> Submittable(r[i])
  {
    var lines := Lines(text);
    var data := lines[FirstDataLine(lines)..];
    Seqs.FilterMapKeeps(data, ParseLine, Submittable);
    Seqs.FilterMap(data, ParseLine)
  }

  /** A paint the import can submit: its hex starts with `#` and it has a
      category. */
  predicate Submittable(p: PaintRow) {
    "#" <= p.hex && p.category != ""
  }

  /** `handleImportCSV`: `None` without a file or an active catalogue;
      otherwise the paints the loop submits, in order, and the `added`
      counter. */
  method ImportCsv(file: Option<string>, catalogActive: bool) returns (r: Option<(seq<PaintRow>, nat)>)
    ensures r.None? <==> file.None? || !catalogActive
    ensures r.Some? ==> r.value.0 == ImportOf(file.value) && r.value.1 == |r.value.0|
  {
    if file.None? || !catalogActive {
      return None;
    }
    var lines := Lines(file.value);
    var submitted, added := Seqs.Collect(lines, FirstDataLine(lines), ParseLine);
    return Some((submitted, added));
  }

  // ------------------------------------------------------------ round trip

  /** A field the CSV carries unchanged: no comma, no newline, no white
      space at either end. */
  predicate FieldPortable(f: string) {
    ',' !in f && '\n' !in f && Text.IsTrimmed(f)
  }

  /** A paint the CSV can carry unchanged: portable fields, a hex that starts
      with `#`, and a category that is set. */
  predicate Portable(p: PaintRow) {
    && FieldPortable(p.name) && FieldPortable(p.code) && FieldPortable(p.hex) && FieldPortable(p.category)
    && "#" <= p.hex && p.category != ""
  }

  function Fields(p: PaintRow): seq<string> {
    [p.name, p.code, p.hex, p.category]
  }

  lemma {:induction false} JoinKeepsOut(parts: seq<string>, sep: char, c: char)
    requires c != sep
    requires forall i :: 0 <= i < |parts| ==> c !in parts[i]
    ensures c !in Text.Join(parts, sep)
    decreases |parts|
  {
    if |parts| > 1 {
      JoinKeepsOut(parts[1..], sep, c);
    }
  }

  lemma SplitExportRow(p: PaintRow)
    requires Portable(p)
    ensures TrimAll(Text.Split(ExportRow(p), ',')) == Fields(p)
  {
    var fields := Fields(p);
    assert forall i :: 0 <= i < |fields| ==> ',' !in fields[i] && Text.IsTrimmed(fields[i]);
    Text.SplitJoin(fields, ',');
    TrimAllTrimmed(fields);
  }

  /** Trimming fields that are already trimmed changes nothing. */
  lemma TrimAllTrimmed(parts: seq<string>)
    requires forall i :: 0 <= i < |parts| ==> Text.IsTrimmed(parts[i])
    ensures TrimAll(parts) == parts
  {
  }

  lemma ExportRowIsLine(p: PaintRow)
    requires Portable(p)
    ensures NotBlank(ExportRow(p)) && '\n' !in ExportRow(p)
  {
    var fields := Fields(p);
    assert forall i :: 0 <= i < |fields| ==> FieldPortable(fields[i]);
    JoinKeepsOut(fields, ',', '\n');
    var row := ExportRow(p);
    assert row == p.name + [','] + Text.Join(fields[1..], ',');
    assert row[|p.name|] == ',';
  }

  lemma ParseExportRow(p: PaintRow)
    requires Portable(p)
    ensures ParseLine(ExportRow(p)) == Some(p)
  {
    SplitExportRow(p);
    assert ParseFields(Fields(p)) == Some(p);
  }

  /** The exported header is one non-blank line ... */
  lemma HeaderIsLine()
    ensures '\n' !in Header && NotBlank(Header)
  {
    assert !Text.IsSpace(Header[0]);
    assert forall i :: 0 <= i < |Header| ==> Header[i] != '\n';
  }

  /** ... that the import recognises as the header and skips. */
  lemma HeaderMentionsNome()
    ensures Text.Contains(Text.Lower(Header), "nome")
  {
    HeaderStartsWithNome();
    Text.ContainsPrefix(Text.Lower(Header), "nome");
  }

  lemma HeaderStartsWithNome()
    ensures "nome" <= Text.Lower(Header)
  {
    assert "nome" <= Header;
    Text.LowerKeepsLowerPrefix(Header, "nome");
  }

  /** Separator-free, non-blank lines joined by newlines read back as themselves. */
  lemma LinesOfJoin(all: seq<string>)
    requires |all| >= 1
    requires forall i :: 0 <= i < |all| ==> '\n' !in all[i] && NotBlank(all[i])
    ensures Lines(Text.Join(all, '\n')) == all
  {
    Text.SplitJoin(all, '\n');
    Seqs.FilterKeepsAll(all, NotBlank);
  }

  /** Every line of an export is one non-blank line. */
  lemma ExportLinesClean(paints: seq<PaintRow>, all: seq<string>)
    requires forall i :: 0 <= i < |paints| ==> Portable(paints[i])
    requires all == [Header] + ExportRows(paints)
    ensures Lines(Text.Join(all, '\n')) == all
  {
    var rows := ExportRows(paints);
    forall i | 0 <= i < |rows|
      ensures '\n' !in rows[i] && NotBlank(rows[i])
    {
      ExportRowIsLine(paints[i]);
    }
    HeaderIsLine();
    CleanLines(Header, rows, all);
    LinesOfJoin(all);
  }

  lemma CleanLines(head: string, rows: seq<string>, all: seq<string>)
    requires '\n' !in head && NotBlank(head)
    requires forall i :: 0 <= i < |rows| ==> '\n' !in rows[i] && NotBlank(rows[i])
    requires all == [head] + rows
    ensures forall i :: 0 <= i < |all| ==> '\n' !in all[i] && NotBlank(all[i])
  {
    assert forall i :: 0 < i < |all| ==> all[i] == rows[i - 1];
  }

  lemma ExportCsvIsJoin(paints: seq<PaintRow>)
    requires |paints| > 0
    ensures ExportCsv(paints) == Some(Text.Join([Header] + ExportRows(paints), '\n'))
  {
  }

  /** Every exported row parses back to its paint. */
  lemma ParseRows(paints: seq<PaintRow>)
    requires forall i :: 0 <= i < |paints| ==> Portable(paints[i])
    ensures Seqs.FilterMap(ExportRows(paints), ParseLine) == paints
  {
    EachRowParses(paints);
    ParseAll(ExportRows(paints), paints);
  }

  lemma EachRowParses(paints: seq<PaintRow>)
    requires forall i :: 0 <= i < |paints| ==> Portable(paints[i])
    ensures forall i :: 0 <= i < |paints| ==> ParseLine(ExportRows(paints)[i]) == Some(paints[i])
  {
    forall i | 0 <= i < |paints|
      ensures ParseLine(ExportRows(paints)[i]) == Some(paints[i])
    {
      ParseExportRow(paints[i]);
    }
  }

  lemma ParseAll(rows: seq<string>, paints: seq<PaintRow>)
    requires |rows| == |paints|
    requires forall i :: 0 <= i < |rows| ==> ParseLine(rows[i]) == Some(paints[i])
    ensures Seqs.FilterMap(rows, ParseLine) == paints
  {
    Seqs.FilterMapAll(rows, ParseLine, paints);
  }

  /** A text whose lines are the header followed by rows imports as the
      paints the rows parse to. */
  lemma ImportOfHeaded(text: string, rows: seq<string>, paints: seq<PaintRow>)
    requires Lines(text) == [Header] + rows
    requires Seqs.FilterMap(rows, ParseLine) == paints
    ensures ImportOf(text) == paints
  {
    var all := [Header] + rows;
    HeaderMentionsNome();
    assert FirstDataLine(all) == 1;
    assert all[1..] == rows;
  }

  /** Importing an export gives back the exported paints, in order, provided
      every field survives the CSV format. */
  lemma ImportExport(paints: seq<PaintRow>)
    requires |paints| > 0
    requires forall i :: 0 <= i < |paints| ==> Portable(paints[i])
    ensures ImportOf(ExportCsv(paints).value) == paints
  {
    var rows := ExportRows(paints);
    ExportCsvIsJoin(paints);
    ExportLinesClean(paints, [Header] + rows);
    ParseRows(paints);
    ImportOfHeaded(Text.Join([Header] + rows, '\n'), rows, paints);
  }
}

=== FILE: analyze_room.dfy ===
/** The `analyze-room` edge function: rate limiting (10 requests per window),
    ordered image validation, one chat-completion call to the AI gateway with a
    forced tool call, and the extraction of the tool's arguments. Every failure
    after validation other than the gateway's own 429 and 402 is answered with
    status 200 and the four default elements, so the editor can go on.
    The gateway is a scripted `Gateway`: whether the key is configured, whether
    the call threw, its status, its parsed body and the outcome of parsing the
    tool arguments. */
module AnalyzeRoom {
  import opened Optional
  import opened Json
  import RateLimit
  import Project

  const MaxImageSize: nat := 10000000
  const MaxRequests: nat := 10
  const ImagePrefix: string := "data:image/"

  const RateLimitedMessage: string := "Too many requests. Please wait a moment."
  const NoImageMessage: string := "No image provided"
  const TooLargeMessage: string := "Image too large (max 10MB)"
  const BadFormatMessage: string := "Invalid image format"
  const GatewayLimitedMessage: string := "Rate limit exceeded. Please try again later."
  const PaymentMessage: string := "Payment required. Please add credits to continue."
  const FailedMessage: string := "Failed to analyze room"
  const AnalyzedDescription: string := "Ambiente analisado com sucesso"
  const FallbackDescription: string := "Elementos padrão (análise automática não disponível)"

  // ------------------------------------------------------------ default analysis

  /** The `type` string of an element kind. */
  function KindName(k: Project.ElementType): (s: string)
    ensures KindOf(s) == Some(k)
  {
    match k
    case Wall => "wall"
    case Ceiling => "ceiling"
    case Floor => "floor"
    case Door => "door"
    case Window => "window"
    case Furniture => "furniture"
  }

  /** The kind named by a `type` string of the tool schema's enumeration. */
  function KindOf(s: string): (k: Option<Project.ElementType>)
    ensures k.Some? <==> s in {"wall", "ceiling", "floor", "door", "window", "furniture"}
  {
    if s == "wall" then Some(Project.Wall)
    else if s == "ceiling" then Some(Project.Ceiling)
    else if s == "floor" then Some(Project.Floor)
    else if s == "door" then Some(Project.Door)
    else if s == "window" then Some(Project.Window)
    else if s == "furniture" then Some(Project.Furniture)
    else None
  }

  /** Distinct kinds have distinct names. */
  lemma KindNameInjective(a: Project.ElementType, b: Project.ElementType)
    requires KindName(a) == KindName(b)
    ensures a == b
  {
    assert KindOf(KindName(a)) == Some(a);
  }

  function ElementValue(id: string, name: string, kind: string): Value {
    Obj(map["id" := Str(id), "name" := Str(name), "type" := Str(kind), "canPaint" := Bool(true)])
  }

  /** The four elements both default answers carry. */
  const DefaultElementValues: seq<Value> := [
    ElementValue("wall-1", "Parede Principal", "wall"),
    ElementValue("wall-2", "Parede Lateral", "wall"),
    ElementValue("ceiling", "Teto", "ceiling"),
    ElementValue("floor", "Piso", "floor")
  ]

  function DefaultAnalysis(description: string): Value {
    Obj(map["elements" := Arr(DefaultElementValues), "description" := Str(description)])
  }

  /** The server's default elements are the editor's default elements: same
      order, ids, names and kinds, and every one of them paintable. */
  lemma DefaultsMatchEditor()
    ensures |DefaultElementValues| == |Project.DefaultElements|
    ensures forall i :: 0 <= i < |DefaultElementValues| ==>
      var e := Project.DefaultElements[i];
      && DefaultElementValues[i].Obj?
      && DefaultElementValues[i].fields["id"] == Str(e.id)
      && DefaultElementValues[i].fields["name"] == Str(e.name)
      && DefaultElementValues[i].fields["type"] == Str(KindName(e.kind))
      && DefaultElementValues[i].fields["canPaint"] == Bool(true)
  {
  }

  // ------------------------------------------------------------ validation

  /** The image checks in source order; `None` when the image is accepted,
      otherwise the message of the first check that fails. */
  function CheckImage(image: Value): (r: Option<string>)
    ensures r.None? <==> IsNonEmptyString(image) && |image.s| <= MaxImageSize && ImagePrefix <= image.s
    ensures r == Some(NoImageMessage) <==> !IsNonEmptyString(image)
    ensures r == Some(TooLargeMessage) <==> IsNonEmptyString(image) && |image.s| > MaxImageSize
    ensures r == Some(BadFormatMessage) <==>
      IsNonEmptyString(image) && |image.s| <= MaxImageSize && !(ImagePrefix <= image.s)
  {
    if !IsNonEmptyString(image) then Some(NoImageMessage)
    else if |image.s| > MaxImageSize then Some(TooLargeMessage)
    else if !(ImagePrefix <= image.s) then Some(BadFormatMessage)
    else None
  }

  // ------------------------------------------------------------ tool call

  /** `v?.key`: `undefined` on a null value instead of a TypeError. */
  function OptGet(v: Value, key: string): (r: Value)
    ensures v.Null? ==> r.Null?
    ensures !v.Null? ==> Some(r) == Get(v, key)
  {
    if v.Null? then Null else Get(v, key).value
  }

  /** `v?.[0]`: the first array item, the first character of a string, the
      property "0" of an object, and `undefined` otherwise. */
  function OptFirst(v: Value): (r: Value)
    ensures v.Arr? && |v.items| > 0 ==> r == v.items[0]
    ensures v.Null? || v.Bool? || v.Num? ==> r.Null?
  {
    match v
    case Arr(items) => if |items| > 0 then items[0] else Null
    case Str(s) => if |s| > 0 then Str([s[0]]) else Null
    case Obj(fields) => if "0" in fields then fields["0"] else Null
    case _ => Null
  }

  /** `data.choices?.[0]?.message?.tool_calls?.[0]?.function?.arguments`;
      `None` when `data` itself is null and reading `choices` throws. */
  function ToolArguments(data: Value): (r: Option<Value>)
    ensures r.None? <==> data.Null?
    ensures !data.Null? && (!Truthy(Get(data, "choices").value) || Get(data, "choices").value == Arr([])) ==>
      r == Some(Null)
    ensures !data.Null? && Get(data, "choices").value.Arr? && |Get(data, "choices").value.items| > 0 ==>
      var calls := OptGet(OptGet(Get(data, "choices").value.items[0], "message"), "tool_calls");
      !Truthy(calls) || calls == Arr([]) ==> r == Some(Null)
  {
    match Get(data, "choices")
    case None => None
    case Some(choices) =>
      var call := OptFirst(OptGet(OptGet(OptFirst(choices), "message"), "tool_calls"));
      Some(OptGet(OptGet(call, "function"), "arguments"))
  }

  /** A well-formed gateway reply carrying the given arguments string. */
  function ReplyWith(arguments: string): (data: Value)
    ensures ToolArguments(data) == Some(Str(arguments))
  {
    var fn := Obj(map["arguments" := Str(arguments)]);
    var call := Obj(map["function" := fn]);
    var message := Obj(map["tool_calls" := Arr([call])]);
    Obj(map["choices" := Arr([Obj(map["message" := message])])])
  }

  // ------------------------------------------------------------ gateway

  /** What the gateway call produced: it threw, or it answered with a status,
      a body that parsed (`None` when `response.json()` threw), and the result
      of `JSON.parse` on the tool arguments (`None` when that throws). */
  datatype GatewayReply =
    | GatewayThrew
    | GatewayReply(status: int, data: Option<Value>, parsedArguments: Option<Value>)

  datatype Gateway = Gateway(apiKeyConfigured: bool, reply: GatewayReply)

  datatype Body =
    | ErrorBody(error: string)
    | Analyzed(analysis: Value)
    | Fallback(error: string, analysis: Value)

  datatype Response = Response(status: int, body: Body)

  /** The `catch` answer: status 200, the error and the default elements. */
  const Failed: Response := Response(200, Fallback(FailedMessage, DefaultAnalysis(FallbackDescription)))

  /** The answer once the gateway has been called. */
  function Interpret(reply: GatewayReply): (r: Response)
    ensures r.status in {200, 402, 429}
    ensures r.status == 429 <==> reply.GatewayReply? && reply.status == 429
    ensures r.status == 402 <==> reply.GatewayReply? && reply.status == 402
    ensures r.body.Analyzed? <==>
      && reply.GatewayReply? && IsOk(reply.status) && reply.data.Some?
      && ToolArguments(reply.data.value).Some?
      && (!Truthy(ToolArguments(reply.data.value).value) || reply.parsedArguments.Some?)
    ensures r.body.Analyzed? && Truthy(ToolArguments(reply.data.value).value) ==>
      r.body.analysis == reply.parsedArguments.value
    ensures r.body.Analyzed? && !Truthy(ToolArguments(reply.data.value).value) ==>
      r.body.analysis == DefaultAnalysis(AnalyzedDescription)
    ensures r.status == 200 && !r.body.Analyzed? ==> r == Failed
  {
    match reply
    case GatewayThrew => Failed
    case GatewayReply(status, data, parsed) =>
      if !IsOk(status) then
        if status == 429 then Response(429, ErrorBody(GatewayLimitedMessage))
        else if status == 402 then Response(402, ErrorBody(PaymentMessage))
        else Failed
      else if data.None? then Failed
      else
        match ToolArguments(data.value)
        case None => Failed
        case Some(arguments) =>
          if Truthy(arguments) then
            if parsed.None? then Failed else Response(200, Analyzed(parsed.value))
          else Response(200, Analyzed(DefaultAnalysis(AnalyzedDescription)))
  }

  /** Everything after the limiter, with the image sent to the gateway if the
      call was made. */
  datatype Processed = Processed(response: Response, sent: Option<string>)

  function Process(body: Option<Value>, gateway: Gateway): (p: Processed)
    ensures p.response.status in {200, 400, 402, 429}
    ensures p.response.status == 400 <==>
      body.Some? && !body.value.Null? && CheckImage(Get(body.value, "image").value).Some?
    ensures p.response.status == 400 ==>
      p.sent.None? && p.response.body == ErrorBody(CheckImage(Get(body.value, "image").value).value)
    ensures p.sent.Some? ==>
      && body.Some? && Get(body.value, "image") == Some(Str(p.sent.value))
      && CheckImage(Str(p.sent.value)).None? && gateway.apiKeyConfigured
    ensures p.response.status in {402, 429} ==> p.sent.Some?
    ensures body.None? || body.value.Null? ==> p == Processed(Failed, None)
    ensures body.Some? && !body.value.Null? && CheckImage(Get(body.value, "image").value).None? ==>
      && (!gateway.apiKeyConfigured ==> p == Processed(Failed, None))
      && (gateway.apiKeyConfigured ==>
            p == Processed(Interpret(gateway.reply), Some(Get(body.value, "image").value.s)))
  {
    if body.None? || body.value.Null? then Processed(Failed, None)
    else
      var image := Get(body.value, "image").value;
      match CheckImage(image)
      case Some(message) => Processed(Response(400, ErrorBody(message)), None)
      case None =>
        if !gateway.apiKeyConfigured then Processed(Failed, None)
        else Processed(Interpret(gateway.reply), Some(image.s))
  }

  datatype Outcome = Outcome(response: Response, limiter: RateLimit.Table, sent: Option<string>)

  /** The whole request: the limiter runs before the body is read. */
  function Handle(limiter: RateLimit.Table, now: int, forwardedFor: Option<string>,
                  body: Option<Value>, gateway: Gateway): (o: Outcome)
    ensures var v := RateLimit.Check(limiter, RateLimit.ClientKey(forwardedFor), now, MaxRequests);
      && o.limiter == v.table
      && (v.limited ==> o == Outcome(Response(429, ErrorBody(RateLimitedMessage)), v.table, None))
      && (!v.limited ==> o.response == Process(body, gateway).response && o.sent == Process(body, gateway).sent)
    ensures o.response.status in {200, 400, 402, 429}
  {
    var v := RateLimit.Check(limiter, RateLimit.ClientKey(forwardedFor), now, MaxRequests);
    if v.limited then Outcome(Response(429, ErrorBody(RateLimitedMessage)), v.table, None)
    else
      var p := Process(body, gateway);
      Outcome(p.response, v.table, p.sent)
  }

  // ------------------------------------------------------------ properties

  /** The function never answers 5xx: whatever fails after validation, other
      than the gateway's 429 and 402, the caller receives the default
      elements with status 200. */
  lemma NeverServerError(limiter: RateLimit.Table, now: int, forwardedFor: Option<string>,
                         body: Option<Value>, gateway: Gateway)
    ensures var o := Handle(limiter, now, forwardedFor, body, gateway);
      && o.response.status < 500
      && (o.response.status == 200 && !o.response.body.Analyzed? ==>
            o.response.body.analysis == DefaultAnalysis(FallbackDescription))
  {
  }

  /** A successful tool call is passed through untouched. */
  lemma ToolCallPassedThrough(arguments: string, parsed: Value)
    requires arguments != ""
    ensures Interpret(GatewayReply(200, Some(ReplyWith(arguments)), Some(parsed))) == Response(200, Analyzed(parsed))
  {
  }

  /** A reply whose first choice carries no tool call is answered with the
      default elements and the success description. */
  lemma NoToolCallGivesDefaults(message: Value, parsed: Option<Value>)
    requires !Truthy(OptGet(message, "tool_calls"))
    ensures var data := Obj(map["choices" := Arr([Obj(map["message" := message])])]);
      Interpret(GatewayReply(200, Some(data), parsed)) == Response(200, Analyzed(DefaultAnalysis(AnalyzedDescription)))
  {
    var data := Obj(map["choices" := Arr([Obj(map["message" := message])])]);
    assert Get(data, "choices").value.items[0] == Obj(map["message" := message]);
    assert ToolArguments(data) == Some(Null);
  }

  /** Arguments that do not parse are not an error for the caller: they get the
      default elements with status 200. */
  lemma UnparsableArgumentsFallBack(arguments: string)
    requires arguments != ""
    ensures Interpret(GatewayReply(200, Some(ReplyWith(arguments)), None)) == Failed
  {
  }
}

=== FILE: apply_color.dfy ===
/** The `apply-color` edge function: rate limiting, ordered request validation,
    the prompt-input sanitiser, one prediction create call to the image model,
    the poll loop with its progressive delay, output extraction and the mapping
    of each outcome to an HTTP status and JSON body.
    HTTP is abstracted to status codes and parsed fields; the provider is a
    scripted `Provider` whose poll replies carry their own latency, so the
    clock of the poll loop is fully determined by the script. */
module ApplyColor {
  import opened Optional
  import opened Json
  import Text
  import Seqs
  import RateLimit

  const MaxImageSize: nat := 10000000
  const MaxRequests: nat := 5
  const DefaultMaxWaitMs: nat := 120000
  /** Both prompt fields are cut to this many characters before filtering. */
  const PromptFieldCap: nat := 100
  const MaxElementType: nat := 100
  const ImagePrefix: string := "data:image/"

  const RateLimitedMessage: string := "Muitas requisições. Aguarde um momento."
  const FailedMessage: string := "Failed to apply color"
  const ProviderRejectedMessage: string := "Imagem inválida ou modelo indisponível. Tente novamente."
  const NoImageMessage: string := "Modelo não gerou imagem. Tente novamente."

  // ------------------------------------------------------------ validation

  /** The four body fields the function reads. */
  datatype Request = Request(image: Value, elementType: Value, color: Value, colorName: Value)

  /** `const { image, elementType, color, colorName } = body`; `None` when the
      body is `null` and the destructuring throws. */
  function RequestOf(body: Value): (r: Option<Request>)
    ensures r.None? <==> body.Null?
  {
    if body.Null? then None
    else Some(Request(Get(body, "image").value, Get(body, "elementType").value,
                      Get(body, "color").value, Get(body, "colorName").value))
  }

  datatype Invalid = BadImage | BadImageFormat | BadElementType | BadColor

  function InvalidMessage(reason: Invalid): string {
    match reason
    case BadImage => "Invalid or missing image (max 10MB)"
    case BadImageFormat => "Invalid image format"
    case BadElementType => "Invalid element type"
    case BadColor => "Invalid color format (expected hex like #RRGGBB)"
  }

  datatype Checked = Valid(image: string, elementType: string, color: string) | Rejected(reason: Invalid)

  predicate ImageOk(v: Value) { IsNonEmptyString(v) && |v.s| <= MaxImageSize }
  predicate FormatOk(v: Value) { v.Str? && ImagePrefix <= v.s }
  predicate ElementTypeOk(v: Value) { IsNonEmptyString(v) && |v.s| <= MaxElementType }
  predicate ColorOk(v: Value) { IsNonEmptyString(v) && Text.IsHexColor(v.s) }

  /** The checks in source order; the first that fails decides the error. */
  function Validate(req: Request): (c: Checked)
    ensures c.Valid? <==>
      ImageOk(req.image) && FormatOk(req.image) && ElementTypeOk(req.elementType) && ColorOk(req.color)
    ensures c.Valid? ==>
      c.image == req.image.s && c.elementType == req.elementType.s && c.color == req.color.s
    ensures c == Rejected(BadImage) <==> !ImageOk(req.image)
    ensures c == Rejected(BadImageFormat) <==> ImageOk(req.image) && !FormatOk(req.image)
    ensures c == Rejected(BadElementType) <==>
      ImageOk(req.image) && FormatOk(req.image) && !ElementTypeOk(req.elementType)
    ensures c == Rejected(BadColor) <==>
      ImageOk(req.image) && FormatOk(req.image) && ElementTypeOk(req.elementType) && !ColorOk(req.color)
  {
    if !ImageOk(req.image) then Rejected(BadImage)
    else if !(ImagePrefix <= req.image.s) then Rejected(BadImageFormat)
    else if !ElementTypeOk(req.elementType) then Rejected(BadElementType)
    else if !ColorOk(req.color) then Rejected(BadColor)
    else Valid(req.image.s, req.elementType.s, req.color.s)
  }

  /** The regular expression accepts every digit count from 3 to 8, so the
      5- and 7-digit forms pass as well. */
  lemma HexAcceptsOddLengths()
    ensures Text.IsHexColor("#12345") && Text.IsHexColor("#abcdef1")
    ensures !Text.IsHexColor("#12") && !Text.IsHexColor("#123456789") && !Text.IsHexColor("123456")
  {
  }

  // ------------------------------------------------------------ sanitiser

  /** `[\w\sÀ-ÿ\-]`: the characters allowed to reach the prompt. */
  predicate IsPromptSafe(c: char) {
    Text.IsWordChar(c) || Text.IsSpace(c) || ('\U{00C0}' <= c <= '\U{00FF}') || c == '-'
  }

  /** `s.slice(0, 100).replace(/[^\w\sÀ-ÿ\-]/g, "")` */
  function Sanitize(s: string): (r: string)
    ensures |r| <= PromptFieldCap
    ensures Text.AllChars(r, IsPromptSafe)
    ensures Seqs.IsSubseq(r, Text.Take(s, PromptFieldCap))
    ensures forall c :: c in r <==> c in Text.Take(s, PromptFieldCap) && IsPromptSafe(c)
    ensures forall c :: multiset(r)[c] == if IsPromptSafe(c) then multiset(Text.Take(s, PromptFieldCap))[c] else 0
    ensures |s| <= PromptFieldCap && Text.AllChars(s, IsPromptSafe) ==> r == s
  {
    var head := Text.Take(s, PromptFieldCap);
    assert |s| <= PromptFieldCap && Text.AllChars(s, IsPromptSafe) ==> Seqs.Filter(head, IsPromptSafe) == s by {
      if |s| <= PromptFieldCap && Text.AllChars(s, IsPromptSafe) {
        Seqs.FilterKeepsAll(head, IsPromptSafe);
      }
    }
    Seqs.Filter(head, IsPromptSafe)
  }

  /** Sanitising twice is sanitising once. */
  lemma SanitizeIdempotent(s: string)
    ensures Sanitize(Sanitize(s)) == Sanitize(s)
  {
  }

  /** Markup never reaches the prompt: for a tag and a text made of word
      characters, `<tag>text</tag>` is sanitised to `tagtexttag` (angle brackets
      and the slash are deleted, the letters survive in order). */
  lemma SanitizeDropsMarkup(tag: string, text: string)
    requires Text.AllChars(tag, Text.IsWordChar) && Text.AllChars(text, Text.IsWordChar)
    requires 2 * |tag| + |text| + 5 <= PromptFieldCap
    ensures Sanitize("<" + tag + ">" + text + "</" + tag + ">") == tag + text + tag
  {
    var s := "<" + tag + ">" + text + "</" + tag + ">";
    FilterMarkup(tag, text);
    assert Text.Take(s, PromptFieldCap) == s;
  }

  lemma FilterMarkup(tag: string, text: string)
    requires Text.AllChars(tag, Text.IsWordChar) && Text.AllChars(text, Text.IsWordChar)
    ensures Seqs.Filter("<" + tag + ">" + text + "</" + tag + ">", IsPromptSafe) == tag + text + tag
  {
    assert "</" == ['<', '/'];
    FilterTagged('<', '>', '/', tag, text);
  }

  /** `FilterMarkup` over abstract delimiter characters. */
  lemma FilterTagged(lt: char, gt: char, slash: char, tag: string, text: string)
    requires !IsPromptSafe(lt) && !IsPromptSafe(gt) && !IsPromptSafe(slash)
    requires Text.AllChars(tag, Text.IsWordChar) && Text.AllChars(text, Text.IsWordChar)
    ensures Seqs.Filter([lt] + tag + [gt] + text + [lt, slash] + tag + [gt], IsPromptSafe) == tag + text + tag
  {
    var a, b, c, d := [lt] + tag, [gt] + text, [lt, slash] + tag, [gt];
    Assoc(a, [gt], text);
    Assoc(a + b, [lt, slash], tag);
    DropThenKeep([lt], tag);
    DropThenKeep([gt], text);
    DropThenKeep([lt, slash], tag);
    DropThenKeep([gt], []);
    assert [gt] + [] == d;
    CombinePieces(a, b, c, d, tag, text, tag);
  }

  lemma Assoc(x: string, y: string, z: string)
    ensures x + (y + z) == x + y + z
  {
  }

  lemma CombinePieces(a: string, b: string, c: string, d: string, fa: string, fb: string, fc: string)
    requires Seqs.Filter(a, IsPromptSafe) == fa && Seqs.Filter(b, IsPromptSafe) == fb
    requires Seqs.Filter(c, IsPromptSafe) == fc && Seqs.Filter(d, IsPromptSafe) == []
    ensures Seqs.Filter(a + b + c + d, IsPromptSafe) == fa + fb + fc
  {
    FilterOfPieces(a, b, c, d);
  }

  lemma FilterOfPieces(a: string, b: string, c: string, d: string)
    ensures Seqs.Filter(a + b + c + d, IsPromptSafe)
         == Seqs.Filter(a, IsPromptSafe) + Seqs.Filter(b, IsPromptSafe)
          + Seqs.Filter(c, IsPromptSafe) + Seqs.Filter(d, IsPromptSafe)
  {
    Seqs.FilterAppend(a, b, IsPromptSafe);
    Seqs.FilterAppend(a + b, c, IsPromptSafe);
    Seqs.FilterAppend(a + b + c, d, IsPromptSafe);
  }

  lemma DropThenKeep(junk: string, text: string)
    requires forall i :: 0 <= i < |junk| ==> !IsPromptSafe(junk[i])
    requires Text.AllChars(text, Text.IsWordChar)
    ensures Seqs.Filter(junk + text, IsPromptSafe) == text
  {
    Seqs.FilterAppend(junk, text, IsPromptSafe);
    Seqs.FilterKeepsAll(text, IsPromptSafe);
    assert Seqs.Filter(junk, IsPromptSafe) == [];
  }

  /** The colour name sent to the model: the sanitised name when it is a
      string, otherwise the validated hex colour. */
  function SafeColorName(colorName: Value, color: string): (r: string)
    ensures colorName.Str? ==> r == Sanitize(colorName.s)
    ensures !colorName.Str? ==> r == color
  {
    if colorName.Str? then Sanitize(colorName.s) else color
  }

  /** The user-controlled parts interpolated into the prompt of the one create call. */
  datatype PromptParts = PromptParts(elementType: string, colorName: string, color: string)

  // ------------------------------------------------------------ poll loop

  /** The fields of a prediction the function reads. */
  datatype Prediction = Prediction(status: Value, output: Value, pollUrl: Value)

  /** The scripted reply to one poll: how long the request took, its HTTP status
      and the parsed prediction. */
  datatype PollReply = PollReply(latencyMs: nat, httpStatus: int, body: Prediction)

  predicate IsSucceeded(p: Prediction) { p.status == Str("succeeded") }
  predicate IsEnded(p: Prediction) { p.status == Str("failed") || p.status == Str("canceled") }

  /** A poll that neither fails nor reaches a terminal state. */
  predicate Pending(reply: PollReply) {
    IsOk(reply.httpStatus) && !IsSucceeded(reply.body) && !IsEnded(reply.body)
  }

  datatype PollOutcome =
    | PollSucceeded(prediction: Prediction, polls: nat, elapsedMs: nat)
    | PollRejected(httpStatus: int, polls: nat)
    | PredictionEnded(prediction: Prediction, polls: nat)
    | PollTimedOut(polls: nat, elapsedMs: nat)

  /** `Math.min(3000, 1000 + elapsed / 10)`, the wait before the next poll
      (fractional milliseconds are truncated). */
  function PollDelay(elapsedMs: nat): (d: nat)
    ensures 1000 <= d <= 3000
  {
    if 1000 + elapsedMs / 10 < 3000 then 1000 + elapsedMs / 10 else 3000
  }

  /** The wait never shrinks as the job runs longer. */
  lemma PollDelayMonotone(a: nat, b: nat)
    requires a <= b
    ensures PollDelay(a) <= PollDelay(b)
  {
  }

  /** `pollPrediction(url, key, maxWaitMs)` from poll number `polls` on, with
      `elapsedMs` since the loop started. A poll starts only while
      `elapsedMs < maxWaitMs`; it returns on "succeeded", stops on a non-OK reply
      or on "failed"/"canceled", and otherwise waits `PollDelay` and polls again. */
  function PollLoop(replies: nat -> PollReply, polls: nat, elapsedMs: nat, maxWaitMs: nat): PollOutcome
    decreases if elapsedMs < maxWaitMs then maxWaitMs - elapsedMs else 0
  {
    if elapsedMs >= maxWaitMs then PollTimedOut(polls, elapsedMs)
    else
      var reply := replies(polls);
      var now := elapsedMs + reply.latencyMs;
      if !IsOk(reply.httpStatus) then PollRejected(reply.httpStatus, polls + 1)
      else if IsSucceeded(reply.body) then PollSucceeded(reply.body, polls + 1, now)
      else if IsEnded(reply.body) then PredictionEnded(reply.body, polls + 1)
      else PollLoop(replies, polls + 1, now + PollDelay(now), maxWaitMs)
  }

  /** What the loop guarantees about its outcome `r` when started at poll
      `polls` with `elapsedMs` on the clock. */
  ghost predicate LoopOutcome(replies: nat -> PollReply, polls: nat, elapsedMs: nat, maxWaitMs: nat, r: PollOutcome) {
    LoopShape(replies, polls, elapsedMs, maxWaitMs, r) && LoopClock(replies, polls, elapsedMs, maxWaitMs, r)
  }

  /** Which replies were read and why the loop stopped. */
  ghost predicate LoopShape(replies: nat -> PollReply, polls: nat, elapsedMs: nat, maxWaitMs: nat, r: PollOutcome) {
    && r.polls >= polls
    && (elapsedMs >= maxWaitMs ==> r == PollTimedOut(polls, elapsedMs))
    && (elapsedMs < maxWaitMs ==> r.polls > polls)
    && (!r.PollTimedOut? ==> r.polls > polls)
    && (r.polls == polls || (r.polls - polls - 1) * 1000 < maxWaitMs - elapsedMs)
    && (forall k :: polls <= k < r.polls - 1 ==> Pending(replies(k)))
    && (r.PollTimedOut? ==>
          r.elapsedMs >= maxWaitMs && forall k :: polls <= k < r.polls ==> Pending(replies(k)))
    && (r.PollSucceeded? ==>
          && IsOk(replies(r.polls - 1).httpStatus) && IsSucceeded(replies(r.polls - 1).body)
          && r.prediction == replies(r.polls - 1).body
          && r.elapsedMs >= elapsedMs + 1000 * (r.polls - polls - 1))
    && (r.PollRejected? ==>
          !IsOk(replies(r.polls - 1).httpStatus) && r.httpStatus == replies(r.polls - 1).httpStatus)
    && (r.PredictionEnded? ==>
          && IsOk(replies(r.polls - 1).httpStatus) && IsEnded(replies(r.polls - 1).body)
          && r.prediction == replies(r.polls - 1).body)
  }

  /** The budget is re-checked on the loop's own clock before every poll:
      every poll made started inside it, and a timeout happens at the first
      moment the clock reaches it. */
  ghost predicate LoopClock(replies: nat -> PollReply, polls: nat, elapsedMs: nat, maxWaitMs: nat, r: PollOutcome) {
    && r.polls >= polls
    && (forall k :: 0 <= k < r.polls - polls ==> Clock(replies, polls, elapsedMs, k) < maxWaitMs)
    && (r.PollTimedOut? ==> r.elapsedMs == Clock(replies, polls, elapsedMs, r.polls - polls))
    && (r.PollSucceeded? && r.polls > polls ==>
          r.elapsedMs == Clock(replies, polls, elapsedMs, r.polls - polls - 1) + replies(r.polls - 1).latencyMs)
  }

  lemma PollLoopOutcome(replies: nat -> PollReply, polls: nat, elapsedMs: nat, maxWaitMs: nat)
    ensures LoopOutcome(replies, polls, elapsedMs, maxWaitMs, PollLoop(replies, polls, elapsedMs, maxWaitMs))
  {
    PollLoopShape(replies, polls, elapsedMs, maxWaitMs);
    PollLoopClock(replies, polls, elapsedMs, maxWaitMs);
  }

  lemma {:induction false} PollLoopShape(replies: nat -> PollReply, polls: nat, elapsedMs: nat, maxWaitMs: nat)
    ensures LoopShape(replies, polls, elapsedMs, maxWaitMs, PollLoop(replies, polls, elapsedMs, maxWaitMs))
    decreases if elapsedMs < maxWaitMs then maxWaitMs - elapsedMs else 0
  {
    if elapsedMs < maxWaitMs && Pending(replies(polls)) {
      var now := elapsedMs + replies(polls).latencyMs;
      PollLoopShape(replies, polls + 1, now + PollDelay(now), maxWaitMs);
    }
  }

  lemma {:induction false} PollLoopClock(replies: nat -> PollReply, polls: nat, elapsedMs: nat, maxWaitMs: nat)
    ensures LoopClock(replies, polls, elapsedMs, maxWaitMs, PollLoop(replies, polls, elapsedMs, maxWaitMs))
    decreases if elapsedMs < maxWaitMs then maxWaitMs - elapsedMs else 0
  {
    assert Clock(replies, polls, elapsedMs, 0) == elapsedMs;
    if elapsedMs < maxWaitMs && Pending(replies(polls)) {
      var now := elapsedMs + replies(polls).latencyMs;
      var next, following := now + PollDelay(now), polls + 1;
      PollLoopClock(replies, following, next, maxWaitMs);
      PollLoopShape(replies, following, next, maxWaitMs);
      var r := PollLoop(replies, following, next, maxWaitMs);
      assert PollLoop(replies, polls, elapsedMs, maxWaitMs) == r;
      LoopClockStep(replies, polls, elapsedMs, maxWaitMs, following, next, r);
    }
  }

  /** One pending poll in front of a run keeps the run's clock guarantees. */
  lemma LoopClockStep(replies: nat -> PollReply, polls: nat, elapsedMs: nat, maxWaitMs: nat,
                      following: nat, next: nat, r: PollOutcome)
    requires elapsedMs < maxWaitMs && following == polls + 1
    requires next == elapsedMs + replies(polls).latencyMs + PollDelay(elapsedMs + replies(polls).latencyMs)
    requires LoopClock(replies, following, next, maxWaitMs, r)
    requires r.PollSucceeded? ==> r.polls > following
    ensures LoopClock(replies, polls, elapsedMs, maxWaitMs, r)
  {
    assert Clock(replies, polls, elapsedMs, 0) == elapsedMs;
    ClockBoundShift(replies, polls, elapsedMs, maxWaitMs, r.polls - following, following, next);
    if r.PollTimedOut? {
      ClockStep(replies, polls, elapsedMs, r.polls - following);
    } else if r.PollSucceeded? {
      ClockStep(replies, polls, elapsedMs, r.polls - following - 1);
    }
  }

  /** The poll loop with its guarantees. */
  function PollFrom(replies: nat -> PollReply, polls: nat, elapsedMs: nat, maxWaitMs: nat): (r: PollOutcome)
    ensures LoopOutcome(replies, polls, elapsedMs, maxWaitMs, r)
  {
    PollLoopOutcome(replies, polls, elapsedMs, maxWaitMs);
    PollLoop(replies, polls, elapsedMs, maxWaitMs)
  }

  /** The time since the loop started when the `k`-th poll after poll `polls`
      begins: each poll adds its latency and then the wait computed from the
      clock at that moment. */
  function Clock(replies: nat -> PollReply, polls: nat, elapsedMs: nat, k: nat): nat
    decreases k
  {
    if k == 0 then elapsedMs
    else
      var now := elapsedMs + replies(polls).latencyMs;
      Clock(replies, polls + 1, now + PollDelay(now), k - 1)
  }

  /** Polls `polls .. polls + n - 1` all answer "still running". */
  ghost predicate PendingRun(replies: nat -> PollReply, polls: nat, n: nat) {
    forall k :: polls <= k < polls + n ==> Pending(replies(k))
  }

  /** The loop's clock is inside the budget when each of the next `n + 1` polls begins. */
  ghost predicate InBudget(replies: nat -> PollReply, polls: nat, elapsedMs: nat, maxWaitMs: nat, n: nat) {
    forall k :: 0 <= k <= n ==> Clock(replies, polls, elapsedMs, k) < maxWaitMs
  }

  /** A prediction that is still pending on polls `polls .. polls + n - 1` and
      has succeeded on poll `polls + n`, with every one of these polls started
      within the budget, is reported as succeeded with that poll's prediction
      and the clock when its reply arrived. */
  lemma PollSucceedsWithinBudget(replies: nat -> PollReply, polls: nat, elapsedMs: nat, maxWaitMs: nat, n: nat)
    requires PendingRun(replies, polls, n)
    requires InBudget(replies, polls, elapsedMs, maxWaitMs, n)
    requires IsOk(replies(polls + n).httpStatus) && IsSucceeded(replies(polls + n).body)
    ensures PollFrom(replies, polls, elapsedMs, maxWaitMs)
         == PollSucceeded(replies(polls + n).body, polls + n + 1,
                          Clock(replies, polls, elapsedMs, n) + replies(polls + n).latencyMs)
  {
    PollLoopSucceeds(replies, polls, elapsedMs, maxWaitMs, n);
  }

  lemma {:induction false} PollLoopSucceeds(replies: nat -> PollReply, polls: nat, elapsedMs: nat, maxWaitMs: nat, n: nat)
    requires PendingRun(replies, polls, n)
    requires InBudget(replies, polls, elapsedMs, maxWaitMs, n)
    requires IsOk(replies(polls + n).httpStatus) && IsSucceeded(replies(polls + n).body)
    ensures PollLoop(replies, polls, elapsedMs, maxWaitMs)
         == PollSucceeded(replies(polls + n).body, polls + n + 1,
                          Clock(replies, polls, elapsedMs, n) + replies(polls + n).latencyMs)
    decreases n
  {
    InBudgetNow(replies, polls, elapsedMs, maxWaitMs, n);
    if n > 0 {
      var now := elapsedMs + replies(polls).latencyMs;
      var next, following, last, prev := now + PollDelay(now), polls + 1, polls + n, n - 1;
      PendingRunShift(replies, polls, n);
      InBudgetShift(replies, polls, elapsedMs, maxWaitMs, n);
      assert following + prev == last;
      PollLoopSucceeds(replies, following, next, maxWaitMs, prev);
      ClockStep(replies, polls, elapsedMs, prev);
    }
  }

  lemma InBudgetNow(replies: nat -> PollReply, polls: nat, elapsedMs: nat, maxWaitMs: nat, n: nat)
    requires InBudget(replies, polls, elapsedMs, maxWaitMs, n)
    ensures elapsedMs < maxWaitMs
  {
    assert Clock(replies, polls, elapsedMs, 0) < maxWaitMs;
  }

  lemma PendingRunShift(replies: nat -> PollReply, polls: nat, n: nat)
    requires n > 0 && PendingRun(replies, polls, n)
    ensures Pending(replies(polls)) && PendingRun(replies, polls + 1, n - 1)
  {
  }

  lemma InBudgetShift(replies: nat -> PollReply, polls: nat, elapsedMs: nat, maxWaitMs: nat, n: nat)
    requires n > 0 && InBudget(replies, polls, elapsedMs, maxWaitMs, n)
    ensures var now := elapsedMs + replies(polls).latencyMs;
      InBudget(replies, polls + 1, now + PollDelay(now), maxWaitMs, n - 1)
  {
    var now := elapsedMs + replies(polls).latencyMs;
    var next, following := now + PollDelay(now), polls + 1;
    forall k | 0 <= k <= n - 1
      ensures Clock(replies, following, next, k) < maxWaitMs
    {
      ClockStep(replies, polls, elapsedMs, k);
    }
  }

  /** Budget bounds on the clock after the first poll extend to the clock
      before it. */
  lemma ClockBoundShift(replies: nat -> PollReply, polls: nat, elapsedMs: nat, maxWaitMs: nat, n: nat,
                        following: nat, next: nat)
    requires elapsedMs < maxWaitMs
    requires following == polls + 1
    requires next == elapsedMs + replies(polls).latencyMs + PollDelay(elapsedMs + replies(polls).latencyMs)
    requires forall k :: 0 <= k < n ==> Clock(replies, following, next, k) < maxWaitMs
    ensures forall k :: 0 <= k < n + 1 ==> Clock(replies, polls, elapsedMs, k) < maxWaitMs
  {
    forall k | 0 <= k < n + 1
      ensures Clock(replies, polls, elapsedMs, k) < maxWaitMs
    {
      if k > 0 {
        ClockStep(replies, polls, elapsedMs, k - 1);
      }
    }
  }

  lemma ClockStep(replies: nat -> PollReply, polls: nat, elapsedMs: nat, k: nat)
    ensures var now := elapsedMs + replies(polls).latencyMs;
      Clock(replies, polls, elapsedMs, k + 1) == Clock(replies, polls + 1, now + PollDelay(now), k)
  {
  }

  /** A job that never reaches a terminal state ends in a timeout, after at most
      120 polls under the default two-minute budget. */
  lemma NeverTerminalTimesOut(replies: nat -> PollReply)
    requires forall k :: Pending(replies(k))
    ensures PollFrom(replies, 0, 0, DefaultMaxWaitMs).PollTimedOut?
    ensures PollFrom(replies, 0, 0, DefaultMaxWaitMs).polls <= 120
  {
  }

  // ------------------------------------------------------------ responses

  /** `prediction.output`: the first element of a non-empty array, a string
      itself, anything else null. */
  function ExtractImage(output: Value): (r: Value)
    ensures output.Arr? && |output.items| > 0 ==> r == output.items[0]
    ensures output.Str? ==> r == output
    ensures !(output.Arr? && |output.items| > 0) && !output.Str? ==> r == Null
  {
    match output
    case Arr(items) => if |items| > 0 then items[0] else Null
    case Str(_) => output
    case _ => Null
  }

  datatype Body =
    | ErrorBody(error: string)
    | Generated(image: Value)
    | NotGenerated(error: string, original: string)

  datatype Response = Response(status: int, body: Body)

  const Failed: Response := Response(500, ErrorBody(FailedMessage))

  /** The provider as the function sees it: whether the API key is configured,
      the reply to the create call and the replies to successive polls. */
  datatype Provider = Provider(apiKeyConfigured: bool, create: CreateReply, polls: nat -> PollReply)

  datatype CreateReply = CreateThrew | CreateReply(httpStatus: int, prediction: Prediction)

  /** Success with the extracted URL when it is truthy, otherwise a soft failure
      that echoes the original image. */
  function Deliver(output: Value, image: string): (r: Response)
    ensures r.status == 200
    ensures Truthy(ExtractImage(output)) ==> r.body == Generated(ExtractImage(output))
    ensures !Truthy(ExtractImage(output)) ==> r.body == NotGenerated(NoImageMessage, image)
  {
    var url := ExtractImage(output);
    if Truthy(url) then Response(200, Generated(url)) else Response(200, NotGenerated(NoImageMessage, image))
  }

  /** The create call and, when the prediction is not finished at once, the poll loop. */
  function CallProvider(image: string, create: CreateReply, polls: nat -> PollReply): (r: Response)
    ensures r.status in {200, 422, 500}
    ensures r.status == 422 <==> create.CreateReply? && create.httpStatus == 422
    ensures r.body.NotGenerated? ==> r.body.original == image
    ensures r.status == 200 <==>
      && create.CreateReply? && IsOk(create.httpStatus)
      && (|| IsSucceeded(create.prediction)
          || (Truthy(create.prediction.pollUrl) && PollFrom(polls, 0, 0, DefaultMaxWaitMs).PollSucceeded?))
    ensures r.status != 200 ==> r.body.ErrorBody?
    ensures r.status == 422 ==> r.body == ErrorBody(ProviderRejectedMessage)
    ensures r.status == 500 ==> r == Failed
    ensures create.CreateReply? && IsOk(create.httpStatus) && IsSucceeded(create.prediction) ==>
      r == Deliver(create.prediction.output, image)
    ensures create.CreateReply? && IsOk(create.httpStatus) && !IsSucceeded(create.prediction)
            && Truthy(create.prediction.pollUrl) && PollFrom(polls, 0, 0, DefaultMaxWaitMs).PollSucceeded? ==>
      r == Deliver(PollFrom(polls, 0, 0, DefaultMaxWaitMs).prediction.output, image)
  {
    match create
    case CreateThrew => Failed
    case CreateReply(status, prediction) =>
      if !IsOk(status) then
        (if status == 422 then Response(422, ErrorBody(ProviderRejectedMessage)) else Failed)
      else if IsSucceeded(prediction) then Deliver(prediction.output, image)
      else if !Truthy(prediction.pollUrl) then Failed
      else
        match PollFrom(polls, 0, 0, DefaultMaxWaitMs)
        case PollSucceeded(p, _, _) => Deliver(p.output, image)
        case _ => Failed
  }

  /** Everything after the rate limiter: body parsing, validation, the key check
      and the provider call, with the prompt parts of the call if one was made. */
  datatype Processed = Processed(response: Response, call: Option<PromptParts>)

  function Process(body: Option<Value>, provider: Provider): (p: Processed)
    ensures p.response.status == 400 <==>
      exists req :: body.Some? && RequestOf(body.value) == Some(req) && Validate(req).Rejected?
    ensures p.call.Some? ==>
      exists req :: body.Some? && RequestOf(body.value) == Some(req) && Validate(req).Valid?
    ensures p.response.status == 400 ==>
      p.call.None? && p.response.body.ErrorBody?
    ensures p.response.status in {200, 400, 422, 500}
    ensures body.None? || body.value.Null? ==> p == Processed(Failed, None)
    ensures body.Some? && !body.value.Null? ==>
      var req := RequestOf(body.value).value;
      var c := Validate(req);
      && (c.Rejected? ==> p == Processed(Response(400, ErrorBody(InvalidMessage(c.reason))), None))
      && (c.Valid? && !provider.apiKeyConfigured ==> p == Processed(Failed, None))
      && (c.Valid? && provider.apiKeyConfigured ==>
            && p.call == Some(PromptParts(Sanitize(c.elementType), SafeColorName(req.colorName, c.color), c.color))
            && p.response == CallProvider(c.image, provider.create, provider.polls))
  {
    if body.None? || body.value.Null? then Processed(Failed, None)
    else
      var req := RequestOf(body.value).value;
      match Validate(req)
      case Rejected(reason) => Processed(Response(400, ErrorBody(InvalidMessage(reason))), None)
      case Valid(image, elementType, color) =>
        if !provider.apiKeyConfigured then Processed(Failed, None)
        else
          var parts := PromptParts(Sanitize(elementType), SafeColorName(req.colorName, color), color);
          Processed(CallProvider(image, provider.create, provider.polls), Some(parts))
  }

  datatype Outcome = Outcome(response: Response, limiter: RateLimit.Table, call: Option<PromptParts>)

  /** The whole request: the limiter runs first and a limited request gets 429
      before the body is read; the table is updated either way. */
  function Handle(limiter: RateLimit.Table, now: int, forwardedFor: Option<string>,
                  body: Option<Value>, provider: Provider): (o: Outcome)
    ensures var v := RateLimit.Check(limiter, RateLimit.ClientKey(forwardedFor), now, MaxRequests);
      && o.limiter == v.table
      && (o.response.status == 429 <==> v.limited)
      && (v.limited ==> o.call.None? && o.response.body == ErrorBody(RateLimitedMessage))
      && (!v.limited ==> o.response == Process(body, provider).response && o.call == Process(body, provider).call)
    ensures o.response.status in {200, 400, 422, 429, 500}
  {
    var v := RateLimit.Check(limiter, RateLimit.ClientKey(forwardedFor), now, MaxRequests);
    if v.limited then Outcome(Response(429, ErrorBody(RateLimitedMessage)), v.table, None)
    else
      var p := Process(body, provider);
      Outcome(p.response, v.table, p.call)
  }

  // ------------------------------------------------------------ properties

  /** Only sanitised text reaches the prompt: the element type consists of
      allowed characters, and so does the colour name unless it fell back to the
      validated hex colour. */
  lemma PromptIsSanitized(body: Option<Value>, provider: Provider)
    requires Process(body, provider).call.Some?
    ensures var parts := Process(body, provider).call.value;
      && Text.AllChars(parts.elementType, IsPromptSafe)
      && |parts.elementType| <= PromptFieldCap
      && (Text.AllChars(parts.colorName, IsPromptSafe) || Text.IsHexColor(parts.colorName))
      && Text.IsHexColor(parts.color)
  {
  }

  /** A request that fails validation never reaches the provider. */
  lemma InvalidNeverCallsProvider(body: Value, provider: Provider)
    requires RequestOf(body).Some? && Validate(RequestOf(body).value).Rejected?
    ensures Process(Some(body), provider) ==
      Processed(Response(400, ErrorBody(InvalidMessage(Validate(RequestOf(body).value).reason))), None)
  {
  }

  /** There is no retry: a failing create call (other than 422) is reported as
      500 after that one call, whatever the provider would answer next. */
  lemma NoRetryOnServerError(image: string, status: int, prediction: Prediction, polls: nat -> PollReply)
    requires !IsOk(status) && status != 422
    ensures CallProvider(image, CreateReply(status, prediction), polls) == Failed
  {
  }
}

=== FILE: catalog.dfy ===
/** The colour catalogue's search: a text query matched case-insensitively
    against name and code, and a brand and a category filter where "all"
    switches the filter off. */
module Catalog {
  import Text
  import Seqs

  datatype PaintColor = PaintColor(id: string, name: string, code: string, hex: string,
                                   brand: string, category: string)

  const All: string := "all"

  /** The lower-cased query occurs in the lower-cased name or code. */
  predicate MatchesSearch(c: PaintColor, query: string) {
    Text.Contains(Text.Lower(c.name), Text.Lower(query)) || Text.Contains(Text.Lower(c.code), Text.Lower(query))
  }

  predicate MatchesBrand(c: PaintColor, brand: string) {
    brand == All || c.brand == brand
  }

  predicate MatchesCategory(c: PaintColor, category: string) {
    category == All || c.category == category
  }

  predicate Matches(c: PaintColor, query: string, brand: string, category: string) {
    MatchesSearch(c, query) && MatchesBrand(c, brand) && MatchesCategory(c, category)
  }

  /** `filteredColors` */
  function FilterColors(catalog: seq<PaintColor>, query: string, brand: string, category: string): (r: seq<PaintColor>)
    ensures Seqs.IsSubseq(r, catalog)
    ensures forall c :: c in r <==> c in catalog && Matches(c, query, brand, category)
    ensures forall c :: multiset(r)[c] == if Matches(c, query, brand, category) then multiset(catalog)[c] else 0
    ensures forall i :: 0 <= i < |r| ==> MatchesBrand(r[i], brand) && MatchesCategory(r[i], category)
  {
    Seqs.Filter(catalog, c => Matches(c, query, brand, category))
  }

  /** An empty query with both filters on "all" shows the whole catalogue. */
  lemma NoFilterShowsAll(catalog: seq<PaintColor>)
    ensures FilterColors(catalog, "", All, All) == catalog
  {
    forall i | 0 <= i < |catalog|
      ensures Matches(catalog[i], "", All, All)
    {
      Text.ContainsEmpty(Text.Lower(catalog[i].name));
    }
    Seqs.FilterKeepsAll(catalog, c => Matches(c, "", All, All));
  }

  /** The search depends on the query only through its lower-case form. */
  lemma SearchIgnoresCase(catalog: seq<PaintColor>, query: string, brand: string, category: string)
    ensures FilterColors(catalog, query, brand, category) == FilterColors(catalog, Text.Lower(query), brand, category)
  {
    Text.LowerIdempotent(query);
    Seqs.FilterCongruent(catalog, c => Matches(c, query, brand, category),
                         c => Matches(c, Text.Lower(query), brand, category));
  }

  /** Choosing a brand instead of "all" narrows the result to a subsequence. */
  lemma BrandNarrows(catalog: seq<PaintColor>, query: string, brand: string, category: string)
    ensures Seqs.IsSubseq(FilterColors(catalog, query, brand, category), FilterColors(catalog, query, All, category))
  {
    Seqs.FilterMonotone(catalog, c => Matches(c, query, brand, category), c => Matches(c, query, All, category));
  }

  /** Choosing a category instead of "all" narrows the result to a subsequence. */
  lemma CategoryNarrows(catalog: seq<PaintColor>, query: string, brand: string, category: string)
    ensures Seqs.IsSubseq(FilterColors(catalog, query, brand, category), FilterColors(catalog, query, brand, All))
  {
    Seqs.FilterMonotone(catalog, c => Matches(c, query, brand, category), c => Matches(c, query, brand, All));
  }

  /** Extending the query can only narrow the result. */
  lemma LongerQueryNarrows(catalog: seq<PaintColor>, query: string, more: string, brand: string, category: string)
    ensures Seqs.IsSubseq(FilterColors(catalog, query + more, brand, category), FilterColors(catalog, query, brand, category))
  {
    forall c: PaintColor | Matches(c, query + more, brand, category)
      ensures Matches(c, query, brand, category)
    {
      LowerAppend(query, more);
      if Text.Contains(Text.Lower(c.name), Text.Lower(query + more)) {
        ContainsPrefixOfNeedle(Text.Lower(c.name), Text.Lower(query), Text.Lower(more));
      } else {
        ContainsPrefixOfNeedle(Text.Lower(c.code), Text.Lower(query), Text.Lower(more));
      }
    }
    Seqs.FilterMonotone(catalog, c => Matches(c, query + more, brand, category), c => Matches(c, query, brand, category));
  }

  lemma {:induction false} LowerAppend(a: string, b: string)
    ensures Text.Lower(a + b) == Text.Lower(a) + Text.Lower(b)
    decreases |a|
  {
    if |a| > 0 {
      assert (a + b)[1..] == a[1..] + b;
      LowerAppend(a[1..], b);
    } else {
      assert a + b == b;
    }
  }


  lemma ContainsPrefixOfNeedle(s: string, t: string, u: string)
    requires Text.Contains(s, t + u)
    ensures Text.Contains(s, t)
  {
    var i :| Text.OccursAt(s, t + u, i);
    assert s[i..i + |t|] == (t + u)[..|t|];
    assert Text.OccursAt(s, t, i);
  }
}

=== FILE: json.dfy ===
/** Parsed request and response values as the edge functions see them after
    `req.json()` / `res.json()`, and the JavaScript tests they apply to them.
    A property that is absent (`undefined`) reads as `Null`; numbers are
    integers (floating point is not modelled). */
module Json {
  import opened Optional

  datatype Value =
    | Null
    | Bool(b: bool)
    | Num(n: int)
    | Str(s: string)
    | Arr(items: seq<Value>)
    | Obj(fields: map<string, Value>)

  /** JavaScript truthiness: `null`, `false`, `0` and `""` are falsy. */
  predicate Truthy(v: Value) {
    match v
    case Null => false
    case Bool(b) => b
    case Num(n) => n != 0
    case Str(s) => s != ""
    case Arr(_) => true
    case Obj(_) => true
  }

  /** `v.key`. Reading a property of `null`/`undefined` throws a TypeError,
      which is `None`; a missing property, or any property of a string, number,
      boolean or array other than the ones modelled, reads as `Null`. */
  function Get(v: Value, key: string): (r: Option<Value>)
    ensures r.None? <==> v.Null?
    ensures v.Obj? && key in v.fields ==> r == Some(v.fields[key])
    ensures !v.Obj? || key !in v.fields ==> r.None? || r == Some(Null)
  {
    match v
    case Null => None
    case Obj(fields) => Some(if key in fields then fields[key] else Null)
    case _ => Some(Null)
  }

  /** `typeof v === "string"` and the string is non-empty, i.e. the negation of
      `!v || typeof v !== "string"`. */
  predicate IsNonEmptyString(v: Value) {
    v.Str? && v.s != ""
  }

  /** `Response.ok`: an HTTP status in the 2xx range. */
  predicate IsOk(status: int) {
    200 <= status <= 299
  }
}

=== FILE: optional.dfy ===
/** A value that may be absent: the model of a JavaScript `T | null` (or an
    optional property that may be `undefined`). */
module Optional {

  datatype Option<+T> = None | Some(value: T) {

    /** `x ?? fallback` */
    function UnwrapOr(fallback: T): T {
      match this
      case Some(v) => v
      case None => fallback
    }
  }
}

=== FILE: project.dfy ===
/** The multi-room editing session of the editor hook: every operation is a
    pure transition `ProjectState -> ProjectState`. The clock that names new
    rooms is the parameter `now`. */
module Project {
  import opened Optional
  import Seqs
  import Text

  datatype ElementType = Wall | Ceiling | Floor | Door | Window | Furniture

  /** A paintable (or excluded) region of a room, with the paint chosen for it. */
  datatype RoomElement = RoomElement(
    id: string,
    name: string,
    kind: ElementType,
    color: Option<string>,
    colorName: Option<string>,
    colorCode: Option<string>,
    colorBrand: Option<string>)

  /** One photographed room of the session. */
  datatype Room = Room(
    id: string,
    name: string,
    originalImage: string,
    processedImage: string,
    elements: seq<RoomElement>,
    selectedElementId: Option<string>)

  datatype ProjectState = ProjectState(
    rooms: seq<Room>,
    activeRoomId: Option<string>,
    isProcessing: bool,
    processingStep: string)

  const DefaultElements: seq<RoomElement> := [
    RoomElement("wall-1", "Parede Principal", Wall, None, None, None, None),
    RoomElement("wall-2", "Parede Lateral", Wall, None, None, None, None),
    RoomElement("ceiling", "Teto", Ceiling, None, None, None, None),
    RoomElement("floor", "Piso", Floor, None, None, None, None)
  ]

  const Initial: ProjectState := ProjectState([], None, false, "")

  /** `room-${Date.now()}` */
  function RoomId(now: nat): string {
    "room-" + Text.NatToString(now)
  }

  /** The name of the n-th room when the caller gives none. */
  function DefaultRoomName(n: nat): string {
    "Ambiente " + Text.NatToString(n)
  }

  predicate HasRoom(rooms: seq<Room>, id: string) {
    exists i :: 0 <= i < |rooms| && rooms[i].id == id
  }

  /** The session invariant: the active id is null or names an existing room. */
  predicate ActiveValid(s: ProjectState) {
    s.activeRoomId.Some? ==> HasRoom(s.rooms, s.activeRoomId.value)
  }

  /** Two room lists with the same ids in the same positions. */
  predicate SameIds(a: seq<Room>, b: seq<Room>) {
    |a| == |b| && forall i :: 0 <= i < |a| ==> a[i].id == b[i].id
  }

  lemma SameIdsKeepActive(s: ProjectState, rooms: seq<Room>)
    requires SameIds(s.rooms, rooms)
    ensures ActiveValid(s) ==> ActiveValid(s.(rooms := rooms))
  {
    if s.activeRoomId.Some? && HasRoom(s.rooms, s.activeRoomId.value) {
      var i :| 0 <= i < |s.rooms| && s.rooms[i].id == s.activeRoomId.value;
      assert rooms[i].id == s.activeRoomId.value;
    }
  }

  // ------------------------------------------------------------ operations

  /** `addRoom(image, name?)`: appends one fresh room and makes it active. */
  function AddRoom(s: ProjectState, now: nat, image: string, name: Option<string>): (r: ProjectState)
    ensures |r.rooms| == |s.rooms| + 1 && r.rooms[..|s.rooms|] == s.rooms
    ensures var room := r.rooms[|s.rooms|];
      && room.id == RoomId(now)
      && room.originalImage == image && room.processedImage == image
      && room.elements == DefaultElements
      && room.selectedElementId.None?
      && room.name == (if name.Some? && name.value != "" then name.value else DefaultRoomName(|s.rooms| + 1))
    ensures r.activeRoomId == Some(RoomId(now))
    ensures r.isProcessing == s.isProcessing && r.processingStep == s.processingStep
    ensures ActiveValid(r)
  {
    var id := RoomId(now);
    var room := Room(id, if name.Some? && name.value != "" then name.value else DefaultRoomName(|s.rooms| + 1),
                     image, image, DefaultElements, None);
    var r := s.(rooms := s.rooms + [room], activeRoomId := Some(id));
    assert r.rooms[|s.rooms|].id == id;
    r
  }

  /** `setActiveRoom(roomId)`: no check that the room exists. */
  function SetActiveRoom(s: ProjectState, roomId: string): (r: ProjectState)
    ensures r.rooms == s.rooms && r.activeRoomId == Some(roomId)
    ensures r.isProcessing == s.isProcessing && r.processingStep == s.processingStep
    ensures ActiveValid(r) <==> HasRoom(s.rooms, roomId)
  {
    s.(activeRoomId := Some(roomId))
  }

  /** `updateRoomName(roomId, name)` */
  function UpdateRoomName(s: ProjectState, roomId: string, name: string): (r: ProjectState)
    ensures r.(rooms := s.rooms) == s
    ensures SameIds(s.rooms, r.rooms)
    ensures forall i :: 0 <= i < |s.rooms| ==>
      && r.rooms[i].(name := s.rooms[i].name) == s.rooms[i]
      && r.rooms[i].name == if s.rooms[i].id == roomId then name else s.rooms[i].name
    ensures ActiveValid(s) ==> ActiveValid(r)
  {
    var rooms := seq(|s.rooms|, i requires 0 <= i < |s.rooms| =>
      if s.rooms[i].id == roomId then s.rooms[i].(name := name) else s.rooms[i]);
    SameIdsKeepActive(s, rooms);
    s.(rooms := rooms)
  }

  /** `removeRoom(roomId)`: drops every room with that id; if it was active, the
      first remaining room (or none) becomes active. */
  /** The rooms, in order, without those carrying the id. */
  function RoomsWithout(rooms: seq<Room>, roomId: string): (r: seq<Room>)
    ensures !HasRoom(r, roomId)
    ensures Seqs.IsSubseq(r, rooms)
    ensures forall room :: room in r <==> room in rooms && room.id != roomId
    ensures forall room :: multiset(r)[room] == if room.id != roomId then multiset(rooms)[room] else 0
  {
    Seqs.Filter(rooms, (room: Room) => room.id != roomId)
  }

  function RemoveRoom(s: ProjectState, roomId: string): (r: ProjectState)
    ensures !HasRoom(r.rooms, roomId)
    ensures Seqs.IsSubseq(r.rooms, s.rooms)
    ensures forall room :: room in r.rooms <==> room in s.rooms && room.id != roomId
    ensures forall room :: multiset(r.rooms)[room] == if room.id != roomId then multiset(s.rooms)[room] else 0
    ensures s.activeRoomId == Some(roomId) ==>
      r.activeRoomId == if |r.rooms| > 0 then Some(r.rooms[0].id) else None
    ensures s.activeRoomId != Some(roomId) ==> r.activeRoomId == s.activeRoomId
    ensures r.isProcessing == s.isProcessing && r.processingStep == s.processingStep
    ensures ActiveValid(s) ==> ActiveValid(r)
  {
    var rooms := RoomsWithout(s.rooms, roomId);
    var active := if s.activeRoomId == Some(roomId) then (if |rooms| > 0 then Some(rooms[0].id) else None)
                  else s.activeRoomId;
    var r := s.(rooms := rooms, activeRoomId := active);
    assert ActiveValid(s) ==> ActiveValid(r) by {
      if ActiveValid(s) && active.Some? {
        if s.activeRoomId == Some(roomId) {
          assert rooms[0].id == active.value;
        } else {
          var i :| 0 <= i < |s.rooms| && s.rooms[i].id == active.value;
          assert s.rooms[i] in rooms;
        }
      }
    }
    r
  }

  /** `setRoomProcessedImage(roomId, image)` */
  function SetRoomProcessedImage(s: ProjectState, roomId: string, image: string): (r: ProjectState)
    ensures r.(rooms := s.rooms) == s
    ensures SameIds(s.rooms, r.rooms)
    ensures forall i :: 0 <= i < |s.rooms| ==>
      && r.rooms[i].(processedImage := s.rooms[i].processedImage) == s.rooms[i]
      && r.rooms[i].processedImage == if s.rooms[i].id == roomId then image else s.rooms[i].processedImage
    ensures ActiveValid(s) ==> ActiveValid(r)
  {
    var rooms := seq(|s.rooms|, i requires 0 <= i < |s.rooms| =>
      if s.rooms[i].id == roomId then s.rooms[i].(processedImage := image) else s.rooms[i]);
    SameIdsKeepActive(s, rooms);
    s.(rooms := rooms)
  }

  /** `setRoomElements(roomId, elements)` */
  function SetRoomElements(s: ProjectState, roomId: string, elements: seq<RoomElement>): (r: ProjectState)
    ensures r.(rooms := s.rooms) == s
    ensures SameIds(s.rooms, r.rooms)
    ensures forall i :: 0 <= i < |s.rooms| ==>
      && r.rooms[i].(elements := s.rooms[i].elements) == s.rooms[i]
      && r.rooms[i].elements == if s.rooms[i].id == roomId then elements else s.rooms[i].elements
    ensures ActiveValid(s) ==> ActiveValid(r)
  {
    var rooms := seq(|s.rooms|, i requires 0 <= i < |s.rooms| =>
      if s.rooms[i].id == roomId then s.rooms[i].(elements := elements) else s.rooms[i]);
    SameIdsKeepActive(s, rooms);
    s.(rooms := rooms)
  }

  /** The room is the one the session is editing (compared with `===`, so no
      room matches a null active id). */
  predicate IsActive(s: ProjectState, room: Room) {
    s.activeRoomId == Some(room.id)
  }

  /** `selectElement(elementId)`: only the active room's selection changes. */
  function SelectElement(s: ProjectState, elementId: Option<string>): (r: ProjectState)
    ensures r.(rooms := s.rooms) == s
    ensures SameIds(s.rooms, r.rooms)
    ensures forall i :: 0 <= i < |s.rooms| ==>
      && r.rooms[i].(selectedElementId := s.rooms[i].selectedElementId) == s.rooms[i]
      && r.rooms[i].selectedElementId == if IsActive(s, s.rooms[i]) then elementId else s.rooms[i].selectedElementId
    ensures ActiveValid(s) ==> ActiveValid(r)
  {
    var rooms := seq(|s.rooms|, i requires 0 <= i < |s.rooms| =>
      if IsActive(s, s.rooms[i]) then s.rooms[i].(selectedElementId := elementId) else s.rooms[i]);
    SameIdsKeepActive(s, rooms);
    s.(rooms := rooms)
  }

  /** The element with id `elementId` recoloured; any other element as it was. */
  function Recolor(elements: seq<RoomElement>, elementId: string, color: string, colorName: string,
                   colorCode: string, colorBrand: string): (r: seq<RoomElement>)
    ensures |r| == |elements|
    ensures forall j :: 0 <= j < |elements| ==>
      && r[j].id == elements[j].id && r[j].name == elements[j].name && r[j].kind == elements[j].kind
      && (elements[j].id != elementId ==> r[j] == elements[j])
      && (elements[j].id == elementId ==>
            r[j].color == Some(color) && r[j].colorName == Some(colorName)
            && r[j].colorCode == Some(colorCode) && r[j].colorBrand == Some(colorBrand))
  {
    seq(|elements|, j requires 0 <= j < |elements| =>
      if elements[j].id == elementId
      then elements[j].(color := Some(color), colorName := Some(colorName),
                        colorCode := Some(colorCode), colorBrand := Some(colorBrand))
      else elements[j])
  }

  /** `updateElementColor(elementId, color, colorName, colorCode, colorBrand)`:
      only the matching element of the active room is recoloured. */
  function UpdateElementColor(s: ProjectState, elementId: string, color: string, colorName: string,
                              colorCode: string, colorBrand: string): (r: ProjectState)
    ensures r.(rooms := s.rooms) == s
    ensures SameIds(s.rooms, r.rooms)
    ensures forall i :: 0 <= i < |s.rooms| ==>
      && r.rooms[i].(elements := s.rooms[i].elements) == s.rooms[i]
      && (!IsActive(s, s.rooms[i]) ==> r.rooms[i] == s.rooms[i])
    ensures forall i :: 0 <= i < |s.rooms| ==> |r.rooms[i].elements| == |s.rooms[i].elements|
    ensures forall i, j :: 0 <= i < |s.rooms| && IsActive(s, s.rooms[i]) && 0 <= j < |s.rooms[i].elements| ==>
      var before, after := s.rooms[i].elements[j], r.rooms[i].elements[j];
      && after.id == before.id && after.name == before.name && after.kind == before.kind
      && (before.id != elementId ==> after == before)
      && (before.id == elementId ==>
            after.color == Some(color) && after.colorName == Some(colorName)
            && after.colorCode == Some(colorCode) && after.colorBrand == Some(colorBrand))
    ensures ActiveValid(s) ==> ActiveValid(r)
  {
    var rooms := seq(|s.rooms|, i requires 0 <= i < |s.rooms| =>
      if IsActive(s, s.rooms[i])
      then s.rooms[i].(elements := Recolor(s.rooms[i].elements, elementId, color, colorName, colorCode, colorBrand))
      else s.rooms[i]);
    SameIdsKeepActive(s, rooms);
    s.(rooms := rooms)
  }

  /** `setProcessing(isProcessing, step?)` */
  function SetProcessing(s: ProjectState, isProcessing: bool, step: Option<string>): (r: ProjectState)
    ensures r.rooms == s.rooms && r.activeRoomId == s.activeRoomId
    ensures r.isProcessing == isProcessing
    ensures r.processingStep == if step.Some? then step.value else ""
    ensures ActiveValid(s) ==> ActiveValid(r)
  {
    s.(isProcessing := isProcessing, processingStep := if step.Some? && step.value != "" then step.value else "")
  }

  /** `resetProject()` */
  function ResetProject(s: ProjectState): (r: ProjectState)
    ensures |r.rooms| == 0 && r.activeRoomId.None? && !r.isProcessing && r.processingStep == ""
    ensures ActiveValid(r)
  {
    Initial
  }

  // ------------------------------------------------------------ derived state

  /** `rooms.find(r => r.id === id)` */
  function Find(rooms: seq<Room>, id: string): (r: Option<Room>)
    ensures r.Some? <==> HasRoom(rooms, id)
    ensures r.Some? ==> exists i :: 0 <= i < |rooms| && rooms[i] == r.value && r.value.id == id
                                    && forall j :: 0 <= j < i ==> rooms[j].id != id
    decreases |rooms|
  {
    if |rooms| == 0 then None
    else if rooms[0].id == id then Some(rooms[0])
    else
      var r := Find(rooms[1..], id);
      assert HasRoom(rooms, id) ==> HasRoom(rooms[1..], id) by {
        if HasRoom(rooms, id) {
          var i :| 0 <= i < |rooms| && rooms[i].id == id;
          assert rooms[1..][i - 1].id == id;
        }
      }
      if r.Some? then
        var i :| 0 <= i < |rooms[1..]| && rooms[1..][i] == r.value && r.value.id == id
                 && forall j :: 0 <= j < i ==> rooms[1..][j].id != id;
        assert rooms[i + 1] == r.value;
        assert forall j :: 0 <= j < i + 1 ==> rooms[j].id != id by {
          forall j | 0 <= j < i + 1 ensures rooms[j].id != id {
            if j > 0 { assert rooms[j] == rooms[1..][j - 1]; }
          }
        }
        r
      else r
  }

  /** `activeRoom`: the first room whose id is the active id, else null. */
  function ActiveRoom(s: ProjectState): (r: Option<Room>)
    ensures r.Some? <==> s.activeRoomId.Some? && HasRoom(s.rooms, s.activeRoomId.value)
    ensures r.Some? ==> r.value in s.rooms && IsActive(s, r.value)
    ensures r.Some? ==> exists i :: 0 <= i < |s.rooms| && s.rooms[i] == r.value
                                    && forall j :: 0 <= j < i ==> s.rooms[j].id != s.activeRoomId.value
    ensures ActiveValid(s) ==> (r.Some? <==> s.activeRoomId.Some?)
  {
    if s.activeRoomId.None? then None else Find(s.rooms, s.activeRoomId.value)
  }

  /** Selecting an element when no room matches the active id changes no room. */
  lemma SelectWithoutActiveRoom(s: ProjectState, elementId: Option<string>)
    requires ActiveRoom(s).None?
    ensures SelectElement(s, elementId) == s
  {
    var r := SelectElement(s, elementId);
    assert forall i :: 0 <= i < |s.rooms| ==> !IsActive(s, s.rooms[i]);
    assert r.rooms == s.rooms;
  }

  /** Every reachable session keeps the invariant: a run of operations from the
      initial state never leaves the active id dangling, provided each explicit
      `setActiveRoom` names an existing room. */
  datatype Op =
    | AddRoomOp(now: nat, image: string, givenName: Option<string>)
    | SetActiveRoomOp(roomId: string)
    | UpdateRoomNameOp(roomId: string, name: string)
    | RemoveRoomOp(roomId: string)
    | SetRoomProcessedImageOp(roomId: string, image: string)
    | SetRoomElementsOp(roomId: string, elements: seq<RoomElement>)
    | SelectElementOp(selection: Option<string>)
    | UpdateElementColorOp(elementId: string, color: string, colorName: string, colorCode: string, colorBrand: string)
    | SetProcessingOp(isProcessing: bool, step: Option<string>)
    | ResetProjectOp

  function Apply(s: ProjectState, op: Op): ProjectState {
    match op
    case AddRoomOp(now, image, name) => AddRoom(s, now, image, name)
    case SetActiveRoomOp(roomId) => SetActiveRoom(s, roomId)
    case UpdateRoomNameOp(roomId, name) => UpdateRoomName(s, roomId, name)
    case RemoveRoomOp(roomId) => RemoveRoom(s, roomId)
    case SetRoomProcessedImageOp(roomId, image) => SetRoomProcessedImage(s, roomId, image)
    case SetRoomElementsOp(roomId, elements) => SetRoomElements(s, roomId, elements)
    case SelectElementOp(elementId) => SelectElement(s, elementId)
    case UpdateElementColorOp(elementId, color, colorName, colorCode, colorBrand) =>
      UpdateElementColor(s, elementId, color, colorName, colorCode, colorBrand)
    case SetProcessingOp(isProcessing, step) => SetProcessing(s, isProcessing, step)
    case ResetProjectOp => ResetProject(s)
  }

  /** The explicit activation targets an existing room. */
  predicate Guarded(s: ProjectState, op: Op) {
    op.SetActiveRoomOp? ==> HasRoom(s.rooms, op.roomId)
  }

  function ApplyAll(s: ProjectState, ops: seq<Op>): ProjectState
    decreases |ops|
  {
    if |ops| == 0 then s else ApplyAll(Apply(s, ops[0]), ops[1..])
  }

  predicate AllGuarded(s: ProjectState, ops: seq<Op>)
    decreases |ops|
  {
    |ops| == 0 || (Guarded(s, ops[0]) && AllGuarded(Apply(s, ops[0]), ops[1..]))
  }

  lemma {:induction false} ActiveValidReachable(s: ProjectState, ops: seq<Op>)
    requires ActiveValid(s) && AllGuarded(s, ops)
    ensures ActiveValid(ApplyAll(s, ops))
    decreases |ops|
  {
    if |ops| > 0 {
      var s' := Apply(s, ops[0]);
      assert ActiveValid(s');
      ActiveValidReachable(s', ops[1..]);
    }
  }
}

=== FILE: rate_limit.dfy ===
/** The fixed-window, per-client request limiter both AI edge functions keep in
    process memory (apply-color allows 5 requests per window, analyze-room 10).
    The table is threaded explicitly and the clock is the parameter `now`; each
    request is one atomic step. */
module RateLimit {
  import opened Optional
  import Text

  const WindowMs: int := 60000

  /** Requests seen in the current window and the instant the window closes. */
  datatype Entry = Entry(count: nat, resetAt: int)

  type Table = map<string, Entry>

  datatype Verdict = Verdict(limited: bool, table: Table)

  /** The window of `key` is open at `now` (an entry exists and has not expired). */
  predicate InWindow(table: Table, key: string, now: int) {
    key in table && now <= table[key].resetAt
  }

  /** `isRateLimited(key)` at time `now`, returning the updated table.
      A first request, or one strictly after the window closed, opens a fresh
      window and is allowed; otherwise the count rises (also while rejected) and
      the request is rejected once it exceeds `max`. No other key is touched. */
  function Check(table: Table, key: string, now: int, max: nat): (v: Verdict)
    ensures key in v.table
    ensures v.table - {key} == table - {key}
    ensures !InWindow(table, key, now) ==> !v.limited && v.table[key] == Entry(1, now + WindowMs)
    ensures InWindow(table, key, now) ==>
      && v.table[key].count == table[key].count + 1
      && v.table[key].resetAt == table[key].resetAt
      && (v.limited <==> v.table[key].count > max)
  {
    if !InWindow(table, key, now) then
      Verdict(false, table[key := Entry(1, now + WindowMs)])
    else
      var e := table[key];
      var e' := Entry(e.count + 1, e.resetAt);
      Verdict(e'.count > max, table[key := e'])
  }

  /** The verdicts for a series of requests from one key at the given instants. */
  function Run(table: Table, key: string, times: seq<int>, max: nat): (r: seq<bool>)
    ensures |r| == |times|
    decreases |times|
  {
    if |times| == 0 then []
    else
      var v := Check(table, key, times[0], max);
      [v.limited] + Run(v.table, key, times[1..], max)
  }

  /** While a window stays open, the k-th further request is rejected exactly
      when the running count exceeds `max`. */
  lemma {:induction false} RunInWindow(table: Table, key: string, times: seq<int>, max: nat)
    requires key in table
    requires forall i :: 0 <= i < |times| ==> times[i] <= table[key].resetAt
    ensures forall i :: 0 <= i < |times| ==>
      Run(table, key, times, max)[i] == (table[key].count + i + 1 > max)
    decreases |times|
  {
    if |times| > 0 {
      var v := Check(table, key, times[0], max);
      RunInWindow(v.table, key, times[1..], max);
    }
  }

  /** Within one window opened by the first request, request number i + 1 is
      rejected iff i + 1 > max; in particular, once rejected a key stays rejected
      until the window expires. */
  lemma NthRequestInWindow(table: Table, key: string, times: seq<int>, max: nat)
    requires max >= 1 && |times| > 0
    requires !InWindow(table, key, times[0])
    requires forall i :: 0 < i < |times| ==> times[i] <= times[0] + WindowMs
    ensures forall i :: 0 <= i < |times| ==> Run(table, key, times, max)[i] == (i + 1 > max)
  {
    var v := Check(table, key, times[0], max);
    var rest := Run(v.table, key, times[1..], max);
    RunInWindow(v.table, key, times[1..], max);
    assert Run(table, key, times, max) == [false] + rest;
    forall i | 1 <= i < |times|
      ensures Run(table, key, times, max)[i] == (i + 1 > max)
    {
      assert Run(table, key, times, max)[i] == rest[i - 1];
    }
  }

  /** Requests from one key never change another key's entry. */
  lemma {:induction false} RunIsolatesKeys(table: Table, key: string, times: seq<int>, max: nat)
    ensures RunTable(table, key, times, max) - {key} == table - {key}
    decreases |times|
  {
    if |times| > 0 {
      var v := Check(table, key, times[0], max);
      RunIsolatesKeys(v.table, key, times[1..], max);
    }
  }

  /** The table after a series of requests from one key. */
  function RunTable(table: Table, key: string, times: seq<int>, max: nat): Table
    decreases |times|
  {
    if |times| == 0 then table
    else RunTable(Check(table, key, times[0], max).table, key, times[1..], max)
  }

  /** `h[..i]` is the first entry of a comma-separated header: it holds no
      comma and ends at the first comma or at the end of `h`. */
  predicate FirstEntryEnds(h: string, i: int) {
    0 <= i <= |h| && ',' !in h[..i] && (i == |h| || h[i] == ',')
  }

  /** The limiter key: the first `x-forwarded-for` entry, trimmed, or
      "unknown" when the header is absent or that entry is blank. */
  function ClientKey(forwardedFor: Option<string>): (k: string)
    ensures k != ""
    ensures ',' !in k && Text.IsTrimmed(k)
    ensures forwardedFor.None? ==> k == "unknown"
    ensures forall i :: forwardedFor.Some? && FirstEntryEnds(forwardedFor.value, i) ==>
      k == (if Text.Trim(forwardedFor.value[..i]) == "" then "unknown" else Text.Trim(forwardedFor.value[..i]))
    ensures forall h :: forwardedFor == Some(h) && h != "" && ',' !in h && Text.IsTrimmed(h) ==> k == h
  {
    match forwardedFor
    case None => "unknown"
    case Some(h) => HeaderKey(h)
  }

  /** The key read from a present header. */
  function HeaderKey(h: string): (k: string)
    ensures k != ""
    ensures ',' !in k && Text.IsTrimmed(k)
    ensures forall i :: FirstEntryEnds(h, i) ==>
      k == (if Text.Trim(h[..i]) == "" then "unknown" else Text.Trim(h[..i]))
    ensures h != "" && ',' !in h && Text.IsTrimmed(h) ==> k == h
  {
    var parts := Text.Split(h, ',');
    assert ',' !in h ==> parts == [h] by {
      if ',' !in h { Text.SplitNoSep(h, ','); }
    }
    assert forall i :: FirstEntryEnds(h, i) ==> parts[0] == h[..i] by {
      forall i | FirstEntryEnds(h, i) ensures parts[0] == h[..i] {
        FirstEntryIsFirstPart(h, i);
      }
    }
    var first := Text.Trim(parts[0]);
    if first == "" then "unknown" else first
  }

  /** The first piece of the split is the text before the first comma. */
  lemma FirstEntryIsFirstPart(h: string, i: int)
    requires FirstEntryEnds(h, i)
    ensures Text.Split(h, ',')[0] == h[..i]
  {
    if i == |h| {
      assert h[..i] == h;
      Text.SplitNoSep(h, ',');
    } else {
      assert h == h[..i] + [','] + h[i + 1..];
      Text.SplitAfterSep(h[..i], h[i + 1..], ',');
    }
  }
}

=== FILE: report.dfy ===
/** The `generate-pdf` edge function: HTML escaping, the data-URL and hex-colour
    validators, the validation and sanitisation of the submitted rooms, and the
    escaping discipline of the report template. The template's fixed markup
    and styling are not reproduced: a report is described by the sequence of
    values it interpolates, each tagged with the context it is written into. */
module Report {
  import opened Optional
  import opened Json
  import Text

  // ------------------------------------------------------------ escaping

  /** The characters that can end a text node or a quoted attribute value. */
  predicate IsMarkupChar(c: char) {
    c == '<' || c == '>' || c == '"' || c == '\''
  }

  /** The characters `escapeHtml` rewrites. */
  predicate IsEscaped(c: char) {
    c == '&' || IsMarkupChar(c)
  }

  /** No character of `s` can leave the context it is written into. */
  predicate Inert(s: string) {
    forall i :: 0 <= i < |s| ==> !IsMarkupChar(s[i])
  }

  const Entities: seq<string> := ["&amp;", "&lt;", "&gt;", "&quot;", "&#039;"]

  /** `escapeHtml`: five global replacements, the ampersand first. */
  function EscapeHtml(s: string): string {
    var amp := Text.ReplaceChar(s, '&', "&amp;");
    var lt := Text.ReplaceChar(amp, '<', "&lt;");
    var gt := Text.ReplaceChar(lt, '>', "&gt;");
    var quot := Text.ReplaceChar(gt, '"', "&quot;");
    Text.ReplaceChar(quot, '\'', "&#039;")
  }

  /** The replacement of one character. */
  function EscapeChar(c: char): (r: string)
    ensures Inert(r)
    ensures IsEscaped(c) ==> r in Entities
    ensures !IsEscaped(c) ==> r == [c]
  {
    if c == '&' then "&amp;"
    else if c == '<' then "&lt;"
    else if c == '>' then "&gt;"
    else if c == '"' then "&quot;"
    else if c == '\'' then "&#039;"
    else [c]
  }

  /** Character-by-character escaping: the reference the five passes agree with. */
  function Escape(s: string): (r: string)
    ensures Inert(r)
    ensures |r| >= |s|
    decreases |s|
  {
    if |s| == 0 then ""
    else
      var head, tail := EscapeChar(s[0]), Escape(s[1..]);
      assert forall i :: |head| <= i < |head| + |tail| ==> (head + tail)[i] == tail[i - |head|];
      head + tail
  }

  lemma EscapeHtmlAppend(a: string, b: string)
    ensures EscapeHtml(a + b) == EscapeHtml(a) + EscapeHtml(b)
  {
    Text.ReplaceCharAppend(a, b, '&', "&amp;");
    var a1, b1 := Text.ReplaceChar(a, '&', "&amp;"), Text.ReplaceChar(b, '&', "&amp;");
    Text.ReplaceCharAppend(a1, b1, '<', "&lt;");
    var a2, b2 := Text.ReplaceChar(a1, '<', "&lt;"), Text.ReplaceChar(b1, '<', "&lt;");
    Text.ReplaceCharAppend(a2, b2, '>', "&gt;");
    var a3, b3 := Text.ReplaceChar(a2, '>', "&gt;"), Text.ReplaceChar(b2, '>', "&gt;");
    Text.ReplaceCharAppend(a3, b3, '"', "&quot;");
    var a4, b4 := Text.ReplaceChar(a3, '"', "&quot;"), Text.ReplaceChar(b3, '"', "&quot;");
    Text.ReplaceCharAppend(a4, b4, '\'', "&#039;");
  }

  /** Later passes never touch what an earlier pass produced. */
  lemma EscapeHtmlOne(c: char)
    ensures EscapeHtml([c]) == EscapeChar(c)
  {
    var e := EscapeChar(c);
    Text.ReplaceCharSingle(c, '&', "&amp;");
    if c == '&' {
      EntityStays(e, '<', "&lt;");
      EntityStays(e, '>', "&gt;");
      EntityStays(e, '"', "&quot;");
      EntityStays(e, '\'', "&#039;");
      return;
    }
    Text.ReplaceCharSingle(c, '<', "&lt;");
    if c == '<' {
      EntityStays(e, '>', "&gt;");
      EntityStays(e, '"', "&quot;");
      EntityStays(e, '\'', "&#039;");
      return;
    }
    Text.ReplaceCharSingle(c, '>', "&gt;");
    if c == '>' {
      EntityStays(e, '"', "&quot;");
      EntityStays(e, '\'', "&#039;");
      return;
    }
    Text.ReplaceCharSingle(c, '"', "&quot;");
    if c == '"' {
      EntityStays(e, '\'', "&#039;");
      return;
    }
    Text.ReplaceCharSingle(c, '\'', "&#039;");
  }

  /** No entity contains a markup character, so the markup passes leave it alone. */
  lemma EntityStays(e: string, x: char, rep: string)
    requires e in Entities && IsMarkupChar(x)
    ensures Text.ReplaceChar(e, x, rep) == e
  {
    assert Inert(e);
    Text.ReplaceCharAbsent(e, x, rep);
  }

  /** The five passes escape each character independently. */
  lemma {:induction false} EscapeHtmlIsCharwise(s: string)
    ensures EscapeHtml(s) == Escape(s)
    decreases |s|
  {
    if |s| > 0 {
      assert s == [s[0]] + s[1..];
      EscapeHtmlAppend([s[0]], s[1..]);
      EscapeHtmlOne(s[0]);
      EscapeHtmlIsCharwise(s[1..]);
    } else {
      assert Text.ReplaceChar(s, '&', "&amp;") == "";
    }
  }

  /** No `<`, `>`, `"` or `'` survives escaping. */
  lemma EscapeHtmlInert(s: string)
    ensures Inert(EscapeHtml(s))
  {
    EscapeHtmlIsCharwise(s);
  }

  /** One of the five entities starts at position `i` of `t`. */
  ghost predicate EntityAt(t: string, i: int) {
    exists k :: 0 <= k < |Entities| && Text.OccursAt(t, Entities[k], i)
  }

  /** An `&` in the replacement of one character opens that replacement, which
      is an entity. */
  lemma AmpersandInEscapeChar(c: char, tail: string, i: int)
    requires 0 <= i < |EscapeChar(c)| && EscapeChar(c)[i] == '&'
    ensures EntityAt(EscapeChar(c) + tail, i)
  {
    var head := EscapeChar(c);
    assert IsEscaped(c) && i == 0;
    var k :| 0 <= k < |Entities| && Entities[k] == head;
    assert (head + tail)[..|head|] == head;
    assert Text.OccursAt(head + tail, Entities[k], 0);
  }

  /** An entity keeps its place, shifted, when text is put in front. */
  lemma EntityAtShift(s: string, t: string, i: int)
    requires EntityAt(t, i)
    ensures EntityAt(s + t, i + |s|)
  {
    var k :| 0 <= k < |Entities| && Text.OccursAt(t, Entities[k], i);
    var e := Entities[k];
    assert (s + t)[i + |s|..i + |s| + |e|] == t[i..i + |e|];
    assert Text.OccursAt(s + t, e, i + |s|);
  }

  /** Every `&` of an escaped string begins one of the five entities. */
  lemma {:induction false} AmpersandStartsEntity(s: string, i: int)
    requires 0 <= i < |Escape(s)| && Escape(s)[i] == '&'
    ensures EntityAt(Escape(s), i)
    decreases |s|
  {
    var head, tail := EscapeChar(s[0]), Escape(s[1..]);
    assert Escape(s) == head + tail;
    if i < |head| {
      AmpersandInEscapeChar(s[0], tail, i);
    } else {
      assert tail[i - |head|] == '&';
      AmpersandStartsEntity(s[1..], i - |head|);
      EntityAtShift(head, tail, i - |head|);
    }
  }

  /** Escaping changes nothing in a string free of the five characters. */
  lemma EscapeHtmlIdentity(s: string)
    requires forall i :: 0 <= i < |s| ==> !IsEscaped(s[i])
    ensures EscapeHtml(s) == s
  {
    Text.ReplaceCharAbsent(s, '&', "&amp;");
    Text.ReplaceCharAbsent(s, '<', "&lt;");
    Text.ReplaceCharAbsent(s, '>', "&gt;");
    Text.ReplaceCharAbsent(s, '"', "&quot;");
    Text.ReplaceCharAbsent(s, '\'', "&#039;");
  }

  /** The decoding of the five entities (longest match from the left). */
  function Unescape(t: string): string
    decreases |t|
  {
    if |t| == 0 then ""
    else if "&amp;" <= t then "&" + Unescape(t[5..])
    else if "&lt;" <= t then "<" + Unescape(t[4..])
    else if "&gt;" <= t then ">" + Unescape(t[4..])
    else if "&quot;" <= t then "\"" + Unescape(t[6..])
    else if "&#039;" <= t then "'" + Unescape(t[6..])
    else [t[0]] + Unescape(t[1..])
  }

  lemma UnescapeStep(c: char, rest: string)
    ensures Unescape(EscapeChar(c) + rest) == [c] + Unescape(rest)
  {
    var e := EscapeChar(c);
    var t := e + rest;
    assert t[|e|..] == rest;
    assert e <= t;
    if !IsEscaped(c) {
      assert t[0] == c && t[1..] == rest;
      assert Unescape(t) == [t[0]] + Unescape(t[1..]);
    } else if c == '&' {
      assert Unescape(t) == "&" + Unescape(t[5..]);
    } else if c == '<' {
      assert t[1] == 'l';
      assert Unescape(t) == "<" + Unescape(t[4..]);
    } else if c == '>' {
      assert t[1] == 'g';
      assert Unescape(t) == ">" + Unescape(t[4..]);
    } else if c == '"' {
      assert t[1] == 'q';
      assert Unescape(t) == "\"" + Unescape(t[6..]);
    } else {
      assert t[1] == '#';
      assert Unescape(t) == "'" + Unescape(t[6..]);
    }
  }

  /** Decoding the entities recovers the input, because `&` is escaped first
      and so never escaped twice. */
  lemma {:induction false} UnescapeEscapeHtml(s: string)
    ensures Unescape(EscapeHtml(s)) == s
  {
    EscapeHtmlIsCharwise(s);
    UnescapeEscape(s);
  }

  lemma {:induction false} UnescapeEscape(s: string)
    ensures Unescape(Escape(s)) == s
    decreases |s|
  {
    if |s| > 0 {
      assert Escape(s) == EscapeChar(s[0]) + Escape(s[1..]);
      UnescapeStep(s[0], Escape(s[1..]));
      UnescapeEscape(s[1..]);
      assert [s[0]] + s[1..] == s;
    }
  }

  // ------------------------------------------------------------ validators

  const ImageTypes: seq<string> := ["png", "jpeg", "jpg", "gif", "webp", "svg+xml"]

  function DataUrlPrefix(imageType: string): string {
    "data:image/" + imageType + ";base64,"
  }

  /** `/^data:image\/(png|jpeg|jpg|gif|webp|svg\+xml);base64,/.test(url)`:
      a prefix check only. */
  predicate IsValidDataUrl(url: string) {
    exists k :: 0 <= k < |ImageTypes| && DataUrlPrefix(ImageTypes[k]) <= url
  }

  /** Whatever follows an accepted prefix is accepted too. */
  lemma DataUrlChecksOnlyPrefix(url: string, rest: string)
    requires IsValidDataUrl(url)
    ensures IsValidDataUrl(url + rest)
  {
    var k :| 0 <= k < |ImageTypes| && DataUrlPrefix(ImageTypes[k]) <= url;
    assert DataUrlPrefix(ImageTypes[k]) <= url + rest;
  }

  /** Every listed type followed by anything is accepted. */
  lemma DataUrlAcceptsListedTypes(k: nat, rest: string)
    requires k < |ImageTypes|
    ensures IsValidDataUrl(DataUrlPrefix(ImageTypes[k]) + rest)
  {
    assert DataUrlPrefix(ImageTypes[k]) <= DataUrlPrefix(ImageTypes[k]) + rest;
  }

  /** `isValidHexColor`: a `#` and three to eight hex digits, nothing else. */
  lemma HexColorShape(s: string)
    ensures Text.IsHexColor(s) <==>
      exists d :: s == "#" + d && 3 <= |d| <= 8 && Text.AllChars(d, Text.IsHexDigit)
  {
    if Text.IsHexColor(s) {
      assert s == "#" + s[1..];
    }
  }

  // ------------------------------------------------------------ sanitisation

  const MaxRooms: nat := 20
  const MaxRoomName: nat := 200
  const MaxElements: nat := 50
  const MaxText: nat := 100
  const MaxColorCode: nat := 50

  const NoRoomsMessage: string := "No rooms provided"
  const TooManyRoomsMessage: string := "Too many rooms (max 20)"
  const InvalidNameMessage: string := "Invalid room name"
  const InvalidElementsMessage: string := "Invalid elements"
  const FailedMessage: string := "Failed to generate report"

  datatype SafeElement = SafeElement(
    name: string,
    color: Option<string>,
    colorName: Option<string>,
    colorCode: Option<string>,
    colorBrand: Option<string>)

  datatype SafeRoom = SafeRoom(
    name: string,
    originalImage: string,
    processedImage: string,
    elements: seq<SafeElement>)

  /** Why the loop stopped: a 400 with a message, or a TypeError (500). */
  datatype Failure = Reject(message: string) | Threw

  datatype Checked<T> = Passed(value: T) | Stopped(failure: Failure)

  /** `typeof v === 'string' ? v.slice(0, n) : undefined` */
  function CappedText(v: Value, n: nat): (r: Option<string>)
    ensures r.Some? <==> v.Str?
    ensures r.Some? ==> r.value <= v.s && |r.value| <= n
    ensures r.Some? && |v.s| <= n ==> r.value == v.s
    ensures r.Some? ==> |r.value| == if |v.s| <= n then |v.s| else n
  {
    if v.Str? then Some(Text.Take(v.s, n)) else None
  }

  /** A data URL is kept only when it passes the validator, otherwise `''`. */
  function CheckedImage(v: Value): (r: string)
    ensures r == "" || IsValidDataUrl(r)
    ensures v.Str? && IsValidDataUrl(v.s) ==> r == v.s
    ensures !(v.Str? && IsValidDataUrl(v.s)) ==> r == ""
  {
    if v.Str? && IsValidDataUrl(v.s) then v.s else ""
  }

  /** The invariant every sanitised element keeps. */
  predicate ElementClean(e: SafeElement) {
    && |e.name| <= MaxText
    && (e.color.Some? ==> Text.IsHexColor(e.color.value))
    && (e.colorName.Some? ==> |e.colorName.value| <= MaxText)
    && (e.colorCode.Some? ==> |e.colorCode.value| <= MaxColorCode)
    && (e.colorBrand.Some? ==> |e.colorBrand.value| <= MaxText)
  }

  predicate RoomClean(r: SafeRoom) {
    && |r.name| <= MaxRoomName
    && (r.originalImage == "" || IsValidDataUrl(r.originalImage))
    && (r.processedImage == "" || IsValidDataUrl(r.processedImage))
    && |r.elements| <= MaxElements
    && forall i :: 0 <= i < |r.elements| ==> ElementClean(r.elements[i])
  }

  /** One step of `room.elements.map(...)`; reading a field of `null` throws. */
  function SanitizeElement(el: Value): (r: Option<SafeElement>)
    ensures r.None? <==> el.Null?
    ensures r.Some? ==> ElementClean(r.value)
    ensures r.Some? ==>
      var name := Get(el, "name").value;
      var color := Get(el, "color").value;
      && (name.Str? ==> r.value.name <= name.s)
      && (name.Str? ==> |r.value.name| == if |name.s| <= MaxText then |name.s| else MaxText)
      && (!name.Str? ==> r.value.name == "")
      && (r.value.color.Some? <==> color.Str? && Text.IsHexColor(color.s))
      && (r.value.color.Some? ==> r.value.color.value == color.s)
      && r.value.colorName == CappedText(Get(el, "colorName").value, MaxText)
      && r.value.colorCode == CappedText(Get(el, "colorCode").value, MaxColorCode)
      && r.value.colorBrand == CappedText(Get(el, "colorBrand").value, MaxText)
  {
    if el.Null? then None
    else
      var name := Get(el, "name").value;
      var color := Get(el, "color").value;
      Some(SafeElement(
        if name.Str? then Text.Take(name.s, MaxText) else "",
        if color.Str? && Text.IsHexColor(color.s) then Some(color.s) else None,
        CappedText(Get(el, "colorName").value, MaxText),
        CappedText(Get(el, "colorCode").value, MaxColorCode),
        CappedText(Get(el, "colorBrand").value, MaxText)))
  }

  /** The whole `map`: throws when any element is `null`; keeps count and order. */
  function SanitizeElements(els: seq<Value>): (r: Option<seq<SafeElement>>)
    ensures r.None? <==> exists i :: 0 <= i < |els| && els[i].Null?
    ensures r.Some? ==> |r.value| == |els|
    ensures r.Some? ==> forall i :: 0 <= i < |els| ==> Some(r.value[i]) == SanitizeElement(els[i])
    decreases |els|
  {
    if |els| == 0 then Some([])
    else
      match SanitizeElement(els[0])
      case None => None
      case Some(e) =>
        match SanitizeElements(els[1..])
        case None => None
        case Some(rest) => Some([e] + rest)
  }

  /** One iteration of the room loop: the name check, the elements check, then
      sanitisation. `room.name` on a `null` room throws. */
  function CheckRoom(room: Value): (r: Checked<SafeRoom>)
    ensures r == Stopped(Threw) <==>
      || room.Null?
      || (&& IsRoomNameOk(Get(room, "name").value)
          && IsElementListOk(Get(room, "elements").value)
          && SanitizeElements(Get(room, "elements").value.items).None?)
    ensures r == Stopped(Reject(InvalidNameMessage)) <==>
      !room.Null? && !IsRoomNameOk(Get(room, "name").value)
    ensures r == Stopped(Reject(InvalidElementsMessage)) <==>
      && !room.Null? && IsRoomNameOk(Get(room, "name").value)
      && !IsElementListOk(Get(room, "elements").value)
    ensures r.Passed? <==>
      && !room.Null? && IsRoomNameOk(Get(room, "name").value)
      && IsElementListOk(Get(room, "elements").value)
      && SanitizeElements(Get(room, "elements").value.items).Some?
    ensures r.Passed? ==> RoomClean(r.value)
    ensures r.Passed? ==>
      && r.value.name == Get(room, "name").value.s
      && |r.value.elements| == |Get(room, "elements").value.items|
      && r.value.elements == SanitizeElements(Get(room, "elements").value.items).value
      && r.value.originalImage == CheckedImage(Get(room, "originalImage").value)
      && r.value.processedImage == CheckedImage(Get(room, "processedImage").value)
  {
    if room.Null? then Stopped(Threw)
    else
      var name := Get(room, "name").value;
      var elements := Get(room, "elements").value;
      if !IsRoomNameOk(name) then Stopped(Reject(InvalidNameMessage))
      else if !IsElementListOk(elements) then Stopped(Reject(InvalidElementsMessage))
      else
        match SanitizeElements(elements.items)
        case None => Stopped(Threw)
        case Some(safe) =>
          Passed(SafeRoom(Text.Take(name.s, MaxRoomName),
                          CheckedImage(Get(room, "originalImage").value),
                          CheckedImage(Get(room, "processedImage").value),
                          safe))
  }

  predicate IsRoomNameOk(name: Value) { name.Str? && |name.s| <= MaxRoomName }
  predicate IsElementListOk(elements: Value) { elements.Arr? && |elements.items| <= MaxElements }

  /** Element `i` is the first that `check` rejects, and it is rejected with
      `failure`. */
  predicate StopsAt<T, S>(xs: seq<T>, check: T -> Checked<S>, i: nat, failure: Failure)
    requires i < |xs|
  {
    check(xs[i]) == Stopped(failure) && forall j :: 0 <= j < i ==> check(xs[j]).Passed?
  }

  /** Runs `check` over `xs` in order and stops at the first rejection. */
  function StopAtFirst<T, S>(xs: seq<T>, check: T -> Checked<S>): (r: Checked<seq<S>>)
    ensures r.Passed? <==> forall i :: 0 <= i < |xs| ==> check(xs[i]).Passed?
    ensures r.Passed? ==> |r.value| == |xs|
    ensures r.Passed? ==> forall i :: 0 <= i < |xs| ==> Passed(r.value[i]) == check(xs[i])
    ensures r.Stopped? ==> exists i :: 0 <= i < |xs| && StopsAt(xs, check, i, r.failure)
    decreases |xs|
  {
    if |xs| == 0 then Passed([])
    else
      match check(xs[0])
      case Stopped(f) =>
        assert StopsAt(xs, check, 0, f);
        Stopped(f)
      case Passed(x) =>
        var rest := StopAtFirst(xs[1..], check);
        if rest.Stopped? then
          assert exists i :: 1 <= i < |xs| && StopsAt(xs, check, i, rest.failure) by {
            var i :| 0 <= i < |xs| - 1 && StopsAt(xs[1..], check, i, rest.failure);
            StopsAtShift(xs, check, i, rest.failure);
          }
          rest
        else
          Passed([x] + rest.value)
  }

  /** A first rejection in the tail, behind a head that passes, is the first
      rejection of the whole sequence. */
  lemma StopsAtShift<T, S>(xs: seq<T>, check: T -> Checked<S>, i: nat, failure: Failure)
    requires 0 < |xs| && check(xs[0]).Passed?
    requires i < |xs| - 1 && StopsAt(xs[1..], check, i, failure)
    ensures StopsAt(xs, check, i + 1, failure)
  {
    assert forall j :: 1 <= j < i + 1 ==> xs[j] == xs[1..][j - 1];
  }

  /** Room `i` is the first that fails, and fails with `failure`. */
  predicate FirstStop(rooms: seq<Value>, i: nat, failure: Failure)
    requires i < |rooms|
  {
    StopsAt(rooms, CheckRoom, i, failure)
  }

  /** The room loop: the first room that fails stops the request. */
  function SanitizeRooms(rooms: seq<Value>): (r: Checked<seq<SafeRoom>>)
    ensures r.Passed? <==> forall i :: 0 <= i < |rooms| ==> CheckRoom(rooms[i]).Passed?
    ensures r.Passed? ==> |r.value| == |rooms|
    ensures r.Passed? ==> forall i :: 0 <= i < |rooms| ==> Passed(r.value[i]) == CheckRoom(rooms[i])
    ensures r.Stopped? ==> exists i :: 0 <= i < |rooms| && FirstStop(rooms, i, r.failure)
  {
    var r := StopAtFirst(rooms, CheckRoom);
    assert r.Stopped? ==> exists i :: 0 <= i < |rooms| && FirstStop(rooms, i, r.failure) by {
      if r.Stopped? {
        var i :| 0 <= i < |rooms| && StopsAt(rooms, CheckRoom, i, r.failure);
        assert FirstStop(rooms, i, r.failure);
      }
    }
    r
  }

  datatype Body = ErrorBody(error: string) | Generated(rooms: seq<SafeRoom>)

  datatype Response = Response(status: int, body: Body)

  /** The handler up to the report: body parsing, the rooms checks and the loop.
      `None` for a body that did not parse. */
  function Generate(body: Option<Value>): (r: Response)
    ensures r.status in {200, 400, 500}
    ensures r.status == 200 <==> r.body.Generated?
    ensures r.body.Generated? ==>
      && 1 <= |r.body.rooms| <= MaxRooms
      && forall i :: 0 <= i < |r.body.rooms| ==> RoomClean(r.body.rooms[i])
    ensures r.status == 500 ==> r.body == ErrorBody(FailedMessage)
    ensures body.Some? && !body.value.Null? ==>
      var rooms := Get(body.value, "rooms").value;
      && (!rooms.Arr? || |rooms.items| == 0 ==> r == Response(400, ErrorBody(NoRoomsMessage)))
      && (rooms.Arr? && |rooms.items| > MaxRooms ==> r == Response(400, ErrorBody(TooManyRoomsMessage)))
      && (r.body.Generated? ==> |r.body.rooms| == |rooms.items|)
    ensures body.None? || body.value.Null? ==> r == Response(500, ErrorBody(FailedMessage))
    ensures body.Some? && !body.value.Null? ==>
      var rooms := Get(body.value, "rooms").value;
      rooms.Arr? && 1 <= |rooms.items| <= MaxRooms ==>
        match SanitizeRooms(rooms.items)
        case Passed(safe) => r == Response(200, Generated(safe))
        case Stopped(Reject(message)) => r == Response(400, ErrorBody(message))
        case Stopped(Threw) => r == Response(500, ErrorBody(FailedMessage))
  {
    if body.None? || body.value.Null? then Response(500, ErrorBody(FailedMessage))
    else
      var rooms := Get(body.value, "rooms").value;
      if !Truthy(rooms) || !rooms.Arr? || |rooms.items| == 0 then Response(400, ErrorBody(NoRoomsMessage))
      else if |rooms.items| > MaxRooms then Response(400, ErrorBody(TooManyRoomsMessage))
      else
        match SanitizeRooms(rooms.items)
        case Passed(safe) => Response(200, Generated(safe))
        case Stopped(Reject(message)) => Response(400, ErrorBody(message))
        case Stopped(Threw) => Response(500, ErrorBody(FailedMessage))
  }

  /** One bad room rejects the whole request, whatever the other rooms hold. */
  lemma OneBadRoomRejectsAll(rooms: seq<Value>, i: nat)
    requires 1 <= |rooms| <= MaxRooms && i < |rooms|
    requires !CheckRoom(rooms[i]).Passed?
    ensures Generate(Some(Obj(map["rooms" := Arr(rooms)]))).status != 200
  {
  }

  // ------------------------------------------------------------ template

  /** A value the template interpolates, tagged with its context. */
  datatype Slot =
    | Number(n: nat)             // `${i + 1}` in a heading
    | Content(text: string)      // element content, passed through `escapeHtml`
    | Background(color: string)  // the `background:` style value
    | Source(url: string)        // an `<img src="...">` attribute value

  const Dash: string := "\U{2014}"
  const NoColor: string := "#eee"

  /** `v || fallback` for an optional string. */
  function OrElse(v: Option<string>, fallback: string): (r: string)
    ensures r == fallback || (v.Some? && r == v.value && r != "")
    ensures v.Some? && v.value != "" ==> r == v.value
    ensures !(v.Some? && v.value != "") ==> r == fallback
  {
    if v.Some? && v.value != "" then v.value else fallback
  }

  /** The five cells of an element row: the name, the swatch colour (the
      placeholder grey when there is none), then colour name, code and brand,
      each a dash when absent. A sanitised element's swatch colour is inert. */
  function ElementSlots(e: SafeElement): (r: seq<Slot>)
    ensures |r| == 5 && r[0] == Content(e.name) && r[1].Background?
    ensures forall k :: 2 <= k < 5 ==> r[k].Content? && (r[k].text == Dash || r[k].text != "")
    ensures r[2] == Content(OrElse(e.colorName, Dash)) && r[3] == Content(OrElse(e.colorCode, Dash))
    ensures r[4] == Content(OrElse(e.colorBrand, Dash))
    ensures e.color.Some? && e.color.value != "" ==> r[1].color == e.color.value
    ensures !(e.color.Some? && e.color.value != "") ==> r[1].color == NoColor
    ensures ElementClean(e) ==> Inert(r[1].color)
  {
    assert ElementClean(e) ==> Inert(OrElse(e.color, NoColor)) by {
      if ElementClean(e) { BackgroundInert(e); }
    }
    [Content(e.name), Background(OrElse(e.color, NoColor)), Content(OrElse(e.colorName, Dash)),
     Content(OrElse(e.colorCode, Dash)), Content(OrElse(e.colorBrand, Dash))]
  }

  function RowSlots(elements: seq<SafeElement>): (r: seq<Slot>)
    ensures |r| == 5 * |elements|
    ensures forall i, k :: 0 <= i < |elements| && 0 <= k < 5 ==> r[5 * i + k] == ElementSlots(elements[i])[k]
    decreases |elements|
  {
    if |elements| == 0 then []
    else
      var head, rest := ElementSlots(elements[0]), RowSlots(elements[1..]);
      assert |head| == 5;
      assert forall j :: 5 <= j < 5 * |elements| ==> (head + rest)[j] == rest[j - 5];
      head + rest
  }

  /** The interpolations of one room section, the room being the `index`-th. */
  function RoomSlots(room: SafeRoom, index: nat): (r: seq<Slot>)
    ensures |r| == 4 + 5 * |room.elements|
    ensures r[0] == Number(index + 1) && r[1] == Content(room.name)
    ensures r[2] == Source(room.originalImage) && r[3] == Source(room.processedImage)
    ensures forall k :: 4 <= k < |r| ==> r[k] == RowSlots(room.elements)[k - 4]
  {
    [Number(index + 1), Content(room.name), Source(room.originalImage), Source(room.processedImage)]
      + RowSlots(room.elements)
  }

  /** What the template writes for a slot, as the code does it: contents are
      escaped, the colour and the image URLs are written raw. */
  function EmitAsWritten(slot: Slot): (r: string)
    ensures slot.Number? || slot.Content? ==> Inert(r)
    ensures slot.Number? ==> Text.AllChars(r, Text.IsDigit) && Text.ParseNat(r) == slot.n
    ensures slot.Content? ==> Unescape(r) == slot.text
    ensures slot.Source? ==> r == slot.url
    ensures slot.Background? ==> r == slot.color
  {
    assert slot.Content? ==> Inert(EscapeHtml(slot.text)) && Unescape(EscapeHtml(slot.text)) == slot.text by {
      if slot.Content? { EscapeHtmlInert(slot.text); UnescapeEscapeHtml(slot.text); }
    }
    assert slot.Number? ==> Text.ParseNat(Text.NatToString(slot.n)) == slot.n by {
      if slot.Number? { Text.ParseNatToString(slot.n); }
    }
    match slot
    case Number(n) => Text.NatToString(n)
    case Content(text) => EscapeHtml(text)
    case Background(color) => color
    case Source(url) => url
  }

  /** The same with the image URLs escaped as well. */
  function Emit(slot: Slot): (r: string)
    ensures !slot.Background? ==> Inert(r)
    ensures !slot.Source? ==> r == EmitAsWritten(slot)
    ensures slot.Number? ==> Text.AllChars(r, Text.IsDigit) && Text.ParseNat(r) == slot.n
    ensures slot.Content? ==> Unescape(r) == slot.text
    ensures slot.Source? ==> Unescape(r) == slot.url
    ensures slot.Source? && (forall i :: 0 <= i < |slot.url| ==> !IsEscaped(slot.url[i])) ==> r == slot.url
  {
    assert slot.Content? ==> Inert(EscapeHtml(slot.text)) by {
      if slot.Content? { EscapeHtmlInert(slot.text); }
    }
    assert slot.Source? ==> Inert(EscapeHtml(slot.url)) && Unescape(EscapeHtml(slot.url)) == slot.url by {
      if slot.Source? { EscapeHtmlInert(slot.url); UnescapeEscapeHtml(slot.url); }
    }
    assert slot.Source? && (forall i :: 0 <= i < |slot.url| ==> !IsEscaped(slot.url[i])) ==> EscapeHtml(slot.url) == slot.url by {
      if slot.Source? && (forall i :: 0 <= i < |slot.url| ==> !IsEscaped(slot.url[i])) { EscapeHtmlIdentity(slot.url); }
    }
    match slot
    case Number(n) => Text.NatToString(n)
    case Content(text) => EscapeHtml(text)
    case Background(color) => color
    case Source(url) => EscapeHtml(url)
  }

  /** The sanitised colour is either valid hex or absent, so the raw
      `background:` value is `#` and hex digits only. */
  lemma BackgroundInert(e: SafeElement)
    requires ElementClean(e)
    ensures Inert(OrElse(e.color, NoColor))
  {
    var c := OrElse(e.color, NoColor);
    if c != NoColor {
      assert Text.IsHexColor(c);
      assert forall i :: 1 <= i < |c| ==> c[1..][i - 1] == c[i];
    }
  }

  /** Every value the corrected template writes for a sanitised room stays in
      its context: none contains `<`, `>`, `"` or `'`. */
  lemma RoomSlotsInert(room: SafeRoom, index: nat)
    requires RoomClean(room)
    ensures forall k :: 0 <= k < |RoomSlots(room, index)| ==> Inert(Emit(RoomSlots(room, index)[k]))
  {
    var slots := RoomSlots(room, index);
    forall k | 0 <= k < |slots|
      ensures Inert(Emit(slots[k]))
    {
      match slots[k]
      case Number(n) =>
      case Content(text) => EscapeHtmlInert(text);
      case Source(url) => EscapeHtmlInert(url);
      case Background(color) =>
        assert slots[k] == RowSlots(room.elements)[k - 4];
        RowBackgroundInert(room.elements, k - 4, color);
    }
  }

  /** A `background:` slot of the element rows holds a sanitised colour. */
  lemma {:induction false} RowBackgroundInert(elements: seq<SafeElement>, j: nat, color: string)
    requires forall i :: 0 <= i < |elements| ==> ElementClean(elements[i])
    requires j < |RowSlots(elements)| && RowSlots(elements)[j] == Background(color)
    ensures Inert(color)
    decreases |elements|
  {
    var head, rest := ElementSlots(elements[0]), RowSlots(elements[1..]);
    assert RowSlots(elements) == head + rest;
    if j < 5 {
      assert head[j] == Background(color) && ElementClean(elements[0]);
    } else {
      assert rest[j - 5] == Background(color);
      RowBackgroundInert(elements[1..], j - 5, color);
    }
  }

  /** The image URL an accepted room carries can still close the `src`
      attribute: the validator looks only at the prefix. */
  lemma SourceBreaksOut()
    ensures var url := DataUrlPrefix("png") + "\" onerror=\"alert(1)";
      var room := Obj(map["name" := Str("Sala"), "elements" := Arr([]), "originalImage" := Str(url)]);
      && CheckRoom(room).Passed?
      && !Inert(EmitAsWritten(Source(CheckRoom(room).value.originalImage)))
  {
    var url := DataUrlPrefix("png") + "\" onerror=\"alert(1)";
    DataUrlAcceptsListedTypes(0, "\" onerror=\"alert(1)");
    assert url[|DataUrlPrefix("png")|] == '"';
  }

  /** Base64 data: letters, digits, `+`, `/`, `=`. */
  predicate IsBase64Char(c: char) {
    Text.IsUpper(c) || Text.IsLower(c) || Text.IsDigit(c) || c == '+' || c == '/' || c == '='
  }

  /** Escaping the URL leaves every genuine base64 image untouched, so the
      corrected template shows the same images. */
  lemma EscapeKeepsDataUrls(k: nat, data: string)
    requires k < |ImageTypes|
    requires Text.AllChars(data, IsBase64Char)
    ensures EscapeHtml(DataUrlPrefix(ImageTypes[k]) + data) == DataUrlPrefix(ImageTypes[k]) + data
  {
    var url := DataUrlPrefix(ImageTypes[k]) + data;
    forall i | 0 <= i < |url|
      ensures !IsEscaped(url[i])
    {
      if i >= |DataUrlPrefix(ImageTypes[k])| {
        assert url[i] == data[i - |DataUrlPrefix(ImageTypes[k])|];
      }
    }
    EscapeHtmlIdentity(url);
  }
}

=== FILE: seqs.dfy ===
/** Order-preserving filtering (`Array.prototype.filter`) and the subsequence
    relation it produces. */
module Seqs {
  import opened Optional

  /** `a` is obtained from `b` by deleting elements, keeping the order of the rest. */
  ghost predicate IsSubseq<T>(a: seq<T>, b: seq<T>)
    decreases |b|
  {
    || |a| == 0
    || (|b| > 0 && ((a[0] == b[0] && IsSubseq(a[1..], b[1..])) || IsSubseq(a, b[1..])))
  }

  /** `s.filter(p)`: keeps exactly the elements satisfying `p`, each as often as
      it occurs in `s`, in their original order. */
  function Filter<T(!new)>(s: seq<T>, p: T -> bool): (r: seq<T>)
    ensures |r| <= |s|
    ensures forall i :: 0 <= i < |r| ==> p(r[i])
    ensures forall x :: x in r <==> x in s && p(x)
    ensures forall x :: multiset(r)[x] == if p(x) then multiset(s)[x] else 0
    ensures IsSubseq(r, s)
    decreases |s|
  {
    if |s| == 0 then []
    else
      assert s == [s[0]] + s[1..];
      var rest := Filter(s[1..], p);
      if p(s[0]) then
        assert ([s[0]] + rest)[1..] == rest;
        [s[0]] + rest
      else rest
  }

  /** Filtering with a predicate every element satisfies changes nothing. */
  lemma {:induction false} FilterKeepsAll<T(!new)>(s: seq<T>, p: T -> bool)
    requires forall i :: 0 <= i < |s| ==> p(s[i])
    ensures Filter(s, p) == s
    decreases |s|
  {
    if |s| > 0 {
      FilterKeepsAll(s[1..], p);
    }
  }

  /** A weaker predicate keeps a super-sequence: strengthening a filter can only
      delete entries from its result. */
  lemma {:induction false} FilterMonotone<T(!new)>(s: seq<T>, p: T -> bool, q: T -> bool)
    requires forall x :: p(x) ==> q(x)
    ensures IsSubseq(Filter(s, p), Filter(s, q))
    decreases |s|
  {
    if |s| > 0 {
      FilterMonotone(s[1..], p, q);
      var a, b := Filter(s[1..], p), Filter(s[1..], q);
      if p(s[0]) {
        assert ([s[0]] + a)[1..] == a;
        assert ([s[0]] + b)[1..] == b;
      } else if q(s[0]) {
        assert ([s[0]] + b)[1..] == b;
      }
    }
  }

  /** Filtering distributes over concatenation. */
  lemma {:induction false} FilterAppend<T(!new)>(a: seq<T>, b: seq<T>, p: T -> bool)
    ensures Filter(a + b, p) == Filter(a, p) + Filter(b, p)
    decreases |a|
  {
    if |a| == 0 {
      assert a + b == b;
    } else {
      assert (a + b)[1..] == a[1..] + b;
      FilterAppend(a[1..], b, p);
    }
  }

  /** Predicates that agree on every element select the same result. */
  lemma {:induction false} FilterCongruent<T(!new)>(s: seq<T>, p: T -> bool, q: T -> bool)
    requires forall i :: 0 <= i < |s| ==> p(s[i]) == q(s[i])
    ensures Filter(s, p) == Filter(s, q)
    decreases |s|
  {
    if |s| > 0 {
      FilterCongruent(s[1..], p, q);
    }
  }

  /** Extending a slice by one element appends that element. */
  lemma SliceSnoc<T>(s: seq<T>, a: nat, b: nat)
    requires a <= b < |s|
    ensures s[a..b + 1] == s[a..b] + [s[b]]
  {
  }

  /** The present values of `Some`, as a sequence of length at most one. */
  function Kept<U>(o: Option<U>): (r: seq<U>)
    ensures |r| <= 1 && (r == [] <==> o.None?)
  {
    if o.Some? then [o.value] else []
  }

  /** A property every element has survives the filter. */
  lemma FilterKeeps<T(!new)>(s: seq<T>, p: T -> bool, q: T -> bool)
    requires forall i :: 0 <= i < |s| ==> q(s[i])
    ensures forall i :: 0 <= i < |Filter(s, p)| ==> q(Filter(s, p)[i])
  {
    var r := Filter(s, p);
    forall i | 0 <= i < |r|
      ensures q(r[i])
    {
      assert r[i] in s;
    }
  }

  /** The results of `f` that are present, in order. */
  function FilterMap<T, U>(s: seq<T>, f: T -> Option<U>): (r: seq<U>)
    ensures |r| <= |s|
    decreases |s|
  {
    if |s| == 0 then [] else FilterMap(s[..|s| - 1], f) + Kept(f(s[|s| - 1]))
  }

  /** When `f` yields a value for every element, those values are the result. */
  lemma {:induction false} FilterMapAll<T, U>(s: seq<T>, f: T -> Option<U>, out: seq<U>)
    requires |out| == |s|
    requires forall i :: 0 <= i < |s| ==> f(s[i]) == Some(out[i])
    ensures FilterMap(s, f) == out
    decreases |s|
  {
    if |s| > 0 {
      var n := |s| - 1;
      FilterMapAll(s[..n], f, out[..n]);
      assert out == out[..n] + [out[n]];
    }
  }

  /** A property every present result of `f` has holds of every element of
      the result. */
  lemma {:induction false} FilterMapKeeps<T, U>(s: seq<T>, f: T -> Option<U>, q: U -> bool)
    requires forall i :: 0 <= i < |s| && f(s[i]).Some? ==> q(f(s[i]).value)
    ensures forall j :: 0 <= j < |FilterMap(s, f)| ==> q(FilterMap(s, f)[j])
    decreases |s|
  {
    if |s| > 0 {
      var n := |s| - 1;
      assert forall i :: 0 <= i < n ==> s[..n][i] == s[i];
      FilterMapKeeps(s[..n], f, q);
    }
  }

  lemma FilterMapStep<T, U>(s: seq<T>, a: nat, i: nat, f: T -> Option<U>)
    requires a <= i < |s|
    ensures FilterMap(s[a..i + 1], f) == FilterMap(s[a..i], f) + Kept(f(s[i]))
  {
    var t := s[a..i + 1];
    assert t[..|t| - 1] == s[a..i];
    assert t[|t| - 1] == s[i];
  }

  /** A loop over `s` from index `start` that appends every present result of
      `f` and counts the appends. */
  method Collect<T, U>(s: seq<T>, start: nat, f: T -> Option<U>) returns (out: seq<U>, count: nat)
    requires start <= |s|
    ensures out == FilterMap(s[start..], f) && count == |out|
  {
    out, count := [], 0;
    var i := start;
    while i < |s|
      invariant start <= i <= |s|
      invariant out == FilterMap(s[start..i], f)
      invariant count == |out|
    {
      var p := f(s[i]);
      if p.Some? {
        out := out + [p.value];
        count := count + 1;
      }
      FilterMapStep(s, start, i, f);
      i := i + 1;
    }
    assert s[start..i] == s[start..];
  }
}

=== FILE: text.dfy ===
/** The JavaScript string built-ins the application relies on: `toLowerCase`,
    `includes`, `slice(0, n)`, `split`, `join`, `trim`, a global single-character
    `replace`, and decimal formatting of integers. A `string` stands for a
    JavaScript string with one `char` per UTF-16 code unit. */
module Text {

  /** `\s` in a JavaScript regular expression; also the set `trim()` removes. */
  predicate IsSpace(c: char) {
    || c == ' '
    || ('\t' <= c <= '\r')
    || c == '\U{00A0}' || c == '\U{1680}'
    || ('\U{2000}' <= c <= '\U{200A}')
    || c == '\U{2028}' || c == '\U{2029}' || c == '\U{202F}' || c == '\U{205F}'
    || c == '\U{3000}' || c == '\U{FEFF}'
  }

  predicate IsDigit(c: char) { '0' <= c <= '9' }
  predicate IsUpper(c: char) { 'A' <= c <= 'Z' }
  predicate IsLower(c: char) { 'a' <= c <= 'z' }

  /** `\w`: ASCII letters, digits and the underscore. */
  predicate IsWordChar(c: char) { IsUpper(c) || IsLower(c) || IsDigit(c) || c == '_' }

  /** `[0-9A-Fa-f]` */
  predicate IsHexDigit(c: char) { IsDigit(c) || 'a' <= c <= 'f' || 'A' <= c <= 'F' }

  predicate AllChars(s: string, p: char -> bool) {
    forall i :: 0 <= i < |s| ==> p(s[i])
  }

  /** `/^#[0-9A-Fa-f]{3,8}$/.test(s)`, the colour check both the colour and the
      report functions apply (JavaScript's `$` without the `m` flag matches only
      at the very end). */
  predicate IsHexColor(s: string) {
    4 <= |s| <= 9 && s[0] == '#' && AllChars(s[1..], IsHexDigit)
  }

  // ---------------------------------------------------------------- case

  function LowerChar(c: char): (d: char)
    ensures !IsUpper(d)
    ensures IsUpper(c) ==> IsLower(d) && d as int == c as int + 32
    ensures !IsUpper(c) ==> d == c
  {
    if IsUpper(c) then (c as int + 32) as char else c
  }

  /** `s.toLowerCase()` restricted to ASCII letters. */
  function Lower(s: string): (r: string)
    ensures |r| == |s|
    ensures forall i :: 0 <= i < |s| ==> r[i] == LowerChar(s[i])
    decreases |s|
  {
    if |s| == 0 then "" else [LowerChar(s[0])] + Lower(s[1..])
  }

  /** Lower-casing an already lower-cased string changes nothing. */
  lemma LowerIdempotent(s: string)
    ensures Lower(Lower(s)) == Lower(s)
  {
  }

  /** A lower-case prefix survives lower-casing. */
  lemma LowerKeepsLowerPrefix(s: string, t: string)
    requires t <= s
    requires forall i :: 0 <= i < |t| ==> !IsUpper(t[i])
    ensures t <= Lower(s)
  {
  }

  /** A string without upper-case letters is its own lower-case form. */
  lemma LowerOfLower(s: string)
    requires forall i :: 0 <= i < |s| ==> !IsUpper(s[i])
    ensures Lower(s) == s
  {
  }

  // ---------------------------------------------------------------- search

  /** `t` occurs in `s` starting at index `i`. */
  ghost predicate OccursAt(s: string, t: string, i: int) {
    0 <= i && i + |t| <= |s| && s[i..i + |t|] == t
  }

  lemma OccursAtTail(s: string, t: string, i: int)
    requires |s| > 0 && i >= 0
    ensures OccursAt(s[1..], t, i) <==> OccursAt(s, t, i + 1)
  {
    if 0 <= i && i + |t| <= |s| - 1 {
      assert s[1..][i..i + |t|] == s[i + 1..i + 1 + |t|];
    }
  }

  /** `s.includes(t)`: some occurrence of `t` lies inside `s`. */
  function Contains(s: string, t: string): (r: bool)
    ensures r <==> exists i :: OccursAt(s, t, i)
    decreases |s|
  {
    if t <= s then
      assert OccursAt(s, t, 0);
      true
    else if |s| == 0 then
      false
    else
      var r := Contains(s[1..], t);
      ContainsStep(s, t, r);
      r
  }

  lemma ContainsStep(s: string, t: string, tail: bool)
    requires |s| > 0 && !(t <= s)
    requires tail <==> exists i :: OccursAt(s[1..], t, i)
    ensures tail <==> exists i :: OccursAt(s, t, i)
  {
    if tail {
      var i :| OccursAt(s[1..], t, i);
      OccursAtTail(s, t, i);
    }
    assert !OccursAt(s, t, 0);
    if i :| OccursAt(s, t, i) {
      OccursAtTail(s, t, i - 1);
    }
  }

  /** A prefix is contained in the string. */
  lemma ContainsPrefix(s: string, t: string)
    requires t <= s
    ensures Contains(s, t)
  {
  }

  /** The empty string is contained in every string. */
  lemma ContainsEmpty(s: string)
    ensures Contains(s, "")
  {
    assert OccursAt(s, "", 0);
  }

  // ---------------------------------------------------------------- slicing

  /** `s.slice(0, n)`: the first `n` characters, or all of `s` when it is shorter. */
  function Take(s: string, n: nat): (r: string)
    ensures r <= s
    ensures |r| == if |s| <= n then |s| else n
  {
    if |s| <= n then s else s[..n]
  }

  /** `s.replace(/c/g, rep)` */
  function ReplaceChar(s: string, c: char, rep: string): (r: string)
    decreases |s|
  {
    if |s| == 0 then "" else (if s[0] == c then rep else [s[0]]) + ReplaceChar(s[1..], c, rep)
  }

  lemma {:induction false} ReplaceCharAppend(a: string, b: string, c: char, rep: string)
    ensures ReplaceChar(a + b, c, rep) == ReplaceChar(a, c, rep) + ReplaceChar(b, c, rep)
    decreases |a|
  {
    if |a| > 0 {
      assert (a + b)[1..] == a[1..] + b;
      ReplaceCharAppend(a[1..], b, c, rep);
    } else {
      assert a + b == b;
    }
  }

  /** Replacing in a one-character string. */
  lemma ReplaceCharSingle(x: char, c: char, rep: string)
    ensures ReplaceChar([x], c, rep) == if x == c then rep else [x]
  {
    assert [x][1..] == "";
  }

  /** Replacing a character that does not occur changes nothing. */
  lemma {:induction false} ReplaceCharAbsent(s: string, c: char, rep: string)
    requires c !in s
    ensures ReplaceChar(s, c, rep) == s
    decreases |s|
  {
    if |s| > 0 {
      ReplaceCharAbsent(s[1..], c, rep);
    }
  }

  // ---------------------------------------------------------------- split / join

  /** `s.split(sep)` for a one-character separator: the maximal separator-free
      pieces, always at least one. */
  function Split(s: string, sep: char): (r: seq<string>)
    ensures |r| >= 1
    ensures forall i :: 0 <= i < |r| ==> sep !in r[i]
    decreases |s|
  {
    if |s| == 0 then [""]
    else
      var rest := Split(s[1..], sep);
      if s[0] == sep then [""] + rest
      else [[s[0]] + rest[0]] + rest[1..]
  }

  /** `parts.join(sep)` */
  function Join(parts: seq<string>, sep: char): string
    decreases |parts|
  {
    if |parts| == 0 then ""
    else if |parts| == 1 then parts[0]
    else parts[0] + [sep] + Join(parts[1..], sep)
  }

  /** Joining the pieces of a split restores the string. */
  lemma {:induction false} JoinSplit(s: string, sep: char)
    ensures Join(Split(s, sep), sep) == s
    decreases |s|
  {
    if |s| > 0 {
      JoinSplit(s[1..], sep);
      var rest := Split(s[1..], sep);
      if s[0] == sep {
        assert ([""] + rest)[1..] == rest;
      } else if |rest| == 1 {
        assert Join(rest, sep) == rest[0];
      } else {
        var parts := [[s[0]] + rest[0]] + rest[1..];
        assert parts[1..] == rest[1..];
        assert Join(rest, sep) == rest[0] + [sep] + Join(rest[1..], sep);
      }
    }
  }

  lemma {:induction false} SplitNoSep(a: string, sep: char)
    requires sep !in a
    ensures Split(a, sep) == [a]
    decreases |a|
  {
    if |a| > 0 {
      SplitNoSep(a[1..], sep);
      assert [a[0]] + a[1..] == a;
    }
  }

  lemma {:induction false} SplitAfterSep(a: string, b: string, sep: char)
    requires sep !in a
    ensures Split(a + [sep] + b, sep) == [a] + Split(b, sep)
    decreases |a|
  {
    var s := a + [sep] + b;
    if |a| == 0 {
      assert s[1..] == b;
    } else {
      assert s[1..] == a[1..] + [sep] + b;
      SplitAfterSep(a[1..], b, sep);
      assert [a[0]] + a[1..] == a;
    }
  }

  /** Splitting the join of separator-free pieces recovers the pieces. */
  lemma {:induction false} SplitJoin(parts: seq<string>, sep: char)
    requires |parts| >= 1
    requires forall i :: 0 <= i < |parts| ==> sep !in parts[i]
    ensures Split(Join(parts, sep), sep) == parts
    decreases |parts|
  {
    if |parts| == 1 {
      SplitNoSep(parts[0], sep);
    } else {
      SplitJoin(parts[1..], sep);
      SplitAfterSep(parts[0], Join(parts[1..], sep), sep);
      assert [parts[0]] + parts[1..] == parts;
    }
  }

  // ---------------------------------------------------------------- trim

  /** No white space at either end. */
  predicate IsTrimmed(s: string) {
    |s| == 0 || (!IsSpace(s[0]) && !IsSpace(s[|s| - 1]))
  }

  function TrimStart(s: string): (r: string)
    ensures |r| <= |s| && r == s[|s| - |r|..]
    ensures |r| == 0 || !IsSpace(r[0])
    ensures forall i :: 0 <= i < |s| - |r| ==> IsSpace(s[i])
    decreases |s|
  {
    if |s| > 0 && IsSpace(s[0]) then TrimStart(s[1..]) else s
  }

  function TrimEnd(s: string): (r: string)
    ensures |r| <= |s| && r == s[..|r|]
    ensures |r| == 0 || !IsSpace(r[|r| - 1])
    ensures forall i :: |r| <= i < |s| ==> IsSpace(s[i])
    decreases |s|
  {
    if |s| > 0 && IsSpace(s[|s| - 1]) then TrimEnd(s[..|s| - 1]) else s
  }

  /** `s.trim()`: drops the white space at both ends and nothing else. */
  function Trim(s: string): (r: string)
    ensures IsTrimmed(r)
    ensures IsTrimmed(s) ==> r == s
    ensures r == "" <==> AllChars(s, IsSpace)
    ensures TrimmedFrom(s, r)
  {
    var t := TrimStart(s);
    var r := TrimEnd(t);
    TrimAllSpace(s, t, r);
    TrimsToBounds(s, t, r);
    r
  }

  lemma TrimAllSpace(s: string, t: string, r: string)
    requires t == TrimStart(s) && r == TrimEnd(t)
    ensures r == "" <==> AllChars(s, IsSpace)
  {
    if r == "" {
      assert |t| == 0;
    }
  }

  /** `s[i..j]` is what is left of `s` once a white-space run is cut from
      each end. */
  ghost predicate TrimsTo(s: string, i: int, j: int) {
    && 0 <= i <= j <= |s|
    && AllChars(s[..i], IsSpace) && AllChars(s[j..], IsSpace)
  }

  /** `r` is `s` with a white-space run cut from each end. */
  ghost predicate TrimmedFrom(s: string, r: string) {
    exists i, j :: TrimsTo(s, i, j) && r == s[i..j]
  }

  lemma TrimsToBounds(s: string, t: string, r: string)
    requires |t| <= |s| && t == s[|s| - |t|..] && forall k :: 0 <= k < |s| - |t| ==> IsSpace(s[k])
    requires |r| <= |t| && r == t[..|r|] && forall k :: |r| <= k < |t| ==> IsSpace(t[k])
    ensures TrimmedFrom(s, r)
  {
    var i, j := |s| - |t|, |s| - |t| + |r|;
    assert forall k :: 0 <= k < |s| - j ==> s[j..][k] == t[|r| + k];
    assert r == s[i..j];
    assert TrimsTo(s, i, j);
  }

  // ---------------------------------------------------------------- numbers

  function DigitChar(d: nat): (c: char)
    requires d < 10
    ensures IsDigit(c) && c as int - '0' as int == d
  {
    ('0' as int + d) as char
  }

  /** `String(n)` for a non-negative integer: canonical decimal digits. */
  function NatToString(n: nat): (r: string)
    ensures |r| >= 1
    ensures AllChars(r, IsDigit)
    ensures |r| > 1 ==> r[0] != '0'
    decreases n
  {
    if n < 10 then [DigitChar(n)] else NatToString(n / 10) + [DigitChar(n % 10)]
  }

  /** The value of a string of decimal digits. */
  function ParseNat(s: string): nat
    requires AllChars(s, IsDigit)
    decreases |s|
  {
    if |s| == 0 then 0 else ParseNat(s[..|s| - 1]) * 10 + (s[|s| - 1] as int - '0' as int)
  }

  /** Formatting a number and reading it back gives the number. */
  lemma {:induction false} ParseNatToString(n: nat)
    ensures ParseNat(NatToString(n)) == n
    decreases n
  {
    if n >= 10 {
      ParseNatToString(n / 10);
      var s := NatToString(n);
      assert s[..|s| - 1] == NatToString(n / 10);
    }
  }

  /** Distinct numbers format to distinct strings. */
  lemma NatToStringInjective(m: nat, n: nat)
    requires NatToString(m) == NatToString(n)
    ensures m == n
  {
    ParseNatToString(m);
    ParseNatToString(n);
  }
}
